=== FILE: README.md ===
# DaVinci: creation store, Gemini request logic and session controller

A Dafny model of the core of the DaVinci web application, which turns a
prompt or an uploaded image into a single-file HTML "creation" by calling
Google's Gemini `generateContent` endpoint, keeps the creations in a
history, and lets the user import saved creations.

The model has six modules, one per file:

- `Wrappers` (`wrappers.dfy`): `Option` and `Result`, and JavaScript
  truthiness of an optional string.
- `Text` (`text.dfy`): the string primitives the code relies on.
  - `trim` and the regular-expression class `\s` share one white-space
    predicate.
  - `includes` is written as a left-to-right search and proved equal to
    "occurs somewhere".
  - `toLowerCase` is included as well.
- `Creations` (`creation.dfy`): the `Creation` record, the three modes,
  and the predicates "distinct identifiers" and "newest first".
- `Storage` (`storage.dfy`), modelling `services/storage.ts`:
  - the IndexedDB object store is a map from `id` to record;
  - `saveCreation` and `deleteCreation` are functions over that map;
  - `getHistory` is a method that sorts the records newest first.
- `Gemini` (`gemini.dfy`), modelling `services/gemini.ts`:
  - key resolution over a `localStorage` map;
  - the ordered, case-insensitive error classifier;
  - prompt and instruction selection and the parts list;
  - the placeholder and the three anchored fence replacements;
  - `bringToLife` with the HTTP exchange given as a function from the
    request to the reply.
- `App` (`app.dfy`), modelling `App.tsx`. The session is an immutable
  record, and each handler is a function from the session before to the
  session after. The handlers modelled are:
  - history loading;
  - saving with the quota fallback;
  - attachment routing;
  - naming and prepending a generated creation;
  - import with de-duplication;
  - the landing-page start.

  Generation goes through an abstract generator (`App.Generator`). Two
  concrete generators wire `Gemini.BringToLife` in: `App.ShiftedGenerator`
  as `App.tsx` calls it, and `App.IntendedGenerator` as the call is
  evidently meant (see Findings).

Browser services are parameters:

| browser service | modelled as |
|---|---|
| `localStorage` | a map |
| `setItem` outcome | a function from the list written to the error name thrown |
| `FileReader` | the file's contents, or `None` when the read fails |
| `crypto.randomUUID()` and `Date.now()` | values passed to each handler |
| example fetches and HTTP replies | data |

## Model

| member | source | states |
|---|---|---|
| Storage.Put | services/storage.ts:47 | `put` files the record under its own id, adds only that key, leaves every other record as it was, and keeps the store keyed by id |
| Storage.Remove | services/storage.ts:90 | `delete` removes exactly that key, keeps every other record, and is a no-op for an absent id |
| Storage.SaveCreation | services/storage.ts:41-56 | saving succeeds exactly when the database opens and the request succeeds; then the store maps the id to the record and no other key changes; a failed open or a failed request is reported as that error |
| Storage.DeleteCreation | services/storage.ts:85-95 | deleting succeeds exactly when the database opens and the request succeeds; only the given id is removed, and an absent id leaves the store unchanged |
| Storage.SaveSameIdTwice | services/storage.ts:35-47 | two saves under one id leave one entry, holding the second record, and the store does not grow |
| Storage.SaveIdempotent | services/storage.ts:47 | saving the same record twice is saving it once |
| Storage.DeleteUndoesSave | services/storage.ts:85-95 | deleting after saving leaves what deleting alone leaves, and restores the store when the id was new |
| Storage.InsertPos | services/storage.ts:73 | the stable insertion point puts the record after every record at least as new and before the first older one |
| Storage.InsertKeepsNewestFirst | services/storage.ts:73 | inserting at that point keeps the sequence ordered newest first |
| Storage.InsertStep | services/storage.ts:64-75 | filing one more record keeps the sorted-so-far invariant: newest first, distinct ids, each record exactly as stored, and every filed key present |
| Storage.GetHistory | services/storage.ts:58-83 | when the database opens, the result is newest first, has distinct ids, lists each stored record unchanged, and lists every stored key; when it does not open, the result is empty; the store is not changed |
| Storage.HistoryCount | services/storage.ts:64-72 | the history has exactly as many entries as the store has records |
| Storage.HistoryDeterminedUpToTies | services/storage.ts:68-73 | any two histories of one store have the same length and the same records |
| Gemini.ResolveGeminiApiKey | services/gemini.ts:92-109 | only the primary slot is ever written, and only with the trimmed legacy value, which is then the returned key; every other slot keeps its value |
| Gemini.KeyPrecedence | services/gemini.ts:92-109 | case by case: a non-blank explicit key wins with no storage access; outside a window the result is empty; then the primary slot; then the legacy slot with a copy forward; otherwise empty and nothing written |
| Gemini.ResolvedKeyIsTrimmed | services/gemini.ts:93-105 | the returned key never has surrounding white space |
| Gemini.MigrationIdempotent | services/gemini.ts:98-106 | after a migration a second resolution returns the same key from the primary slot and writes nothing more |
| Text.TrimIsSurrounded | services/gemini.ts:93 | `trim` removes exactly the white space at both ends: what is left sits in the input between two runs of white space |
| Gemini.ContainsAny | services/gemini.ts:126 | a chain of `includes` tests holds exactly when some listed substring occurs |
| Gemini.Classify | services/gemini.ts:123-141 | the class is one the message mentions, ignoring case, or the generic one, and the message mentions no class tried earlier |
| Gemini.MessageOf | services/gemini.ts:115-123 | a string is its own message, an `Error` gives its `message`, another value its `JSON.stringify` text; there is no message exactly when `JSON.stringify` throws or gives `undefined` |
| Gemini.NormalizeGeminiError | services/gemini.ts:115-142 | the function throws exactly when there is no message; otherwise the result is the quota message if a quota substring occurs in the lower-cased text; else the key one if a key substring occurs; else the network one if a network substring occurs; else the generic one |
| Gemini.ClassifyIsEarliestMention | services/gemini.ts:123-141 | the class chosen is the earliest class whose substrings occur, or the generic class when none occur; both directions |
| Gemini.QuotaInAnyCase | services/gemini.ts:123-128 | a quota substring in any mix of cases makes the message a quota error, whatever else it contains |
| Gemini.AuthInAnyCase | services/gemini.ts:123-133 | a key substring in any mix of cases, with no quota substring, makes the message a key error |
| Gemini.ClassifiersDifferOnlyOnEmbeddedRate | services/gemini.ts:126 | the source's classifier and the whole-word one disagree exactly on messages classed as quota whose only quota clue is "rate" inside a longer word |
| Gemini.RateInsideWordIsQuota | services/gemini.ts:126 | a 404 saying the model "is not supported for generateContent", in any case, is classed as a quota error |
| Gemini.ClassifyIntended | services/gemini.ts:125-128 | the intended quota test: "429", "quota", or "rate" as a whole word; a key or network class is chosen only when its substrings occur and no earlier class applies |
| Gemini.RateInsideWordIsGenericWhenIntended | services/gemini.ts:126 | with whole-word matching, that 404 is classed as generic |
| Gemini.RateLimitIsQuotaWhenIntended | services/gemini.ts:125-126 | with whole-word matching, "RATE_LIMIT_EXCEEDED" is still a quota error |
| Gemini.InstructionFor | services/gemini.ts:160-178 | each mode gets its own persona: Da Vinci for `davinci`, fusion for `fusion`, and the app persona for the app mode |
| Gemini.FinalPrompt | services/gemini.ts:160-178 | the final prompt is never empty; it is the mode's image prompt whenever a non-empty image is given; otherwise it is the user's prompt, or the mode's default prompt when that is empty |
| Gemini.ImageOverridesPrompt | services/gemini.ts:163-176 | with an image, the user's prompt has no influence on the final prompt |
| Gemini.BuildParts | services/gemini.ts:180-190 | the parts list starts with the final prompt as text; it has an inline-data part, carrying the payload and type, exactly when both are non-empty; so it has one or two parts |
| Gemini.CandidateText | services/gemini.ts:217-219 | a missing or empty candidate text becomes the placeholder; otherwise the text is kept |
| Gemini.DropHtmlOpening | services/gemini.ts:222 | the first replacement removes only a prefix, and only when the text starts with "```html" in any case; then it removes those seven characters and all the white space after them, so what is left does not start with white space |
| Gemini.DropOpening | services/gemini.ts:222 | the second replacement removes only a prefix, and only when the text starts with a fence; then it removes the fence and all the white space after it, so what is left does not start with white space |
| Gemini.DropClosing | services/gemini.ts:222 | the third replacement removes exactly three characters at the very end when the text ends with a fence, and nothing otherwise |
| Gemini.StripFences | services/gemini.ts:222 | the cleaned text is the input less an opening and a closing: the opening is present exactly when the input starts with a fence, and is a fence, with or without "html", or an html fence and a second fence, each with the white space after it; when the input starts with "```html" in any case, the opening takes at least those seven characters, and a second fence after them and their white space is taken too; what follows it does not start with white space; the closing is a fence exactly when what follows the opening ends with one, and nothing otherwise; text with no fence at either end is returned unchanged |
| Gemini.FencesRoundTrip | services/gemini.ts:222 | a page wrapped as "```html", white space, page, "```" comes back exactly as the page |
| Gemini.TrailingNewlineKeepsFence | services/gemini.ts:222 | a closing fence followed by a newline is not removed, because `$` anchors at the very end |
| Gemini.CleanOutput | services/gemini.ts:217-222 | a non-empty answer is cleaned as above; a missing or empty one is replaced by the placeholder, which is then cleaned |
| Gemini.EmptyAnswerGivesPlaceholder | services/gemini.ts:217-222 | a missing or empty answer yields the placeholder, untouched by fence stripping |
| Gemini.BareFenceCleansToEmpty | services/gemini.ts:217-222 | an answer that is only a fence cleans to the empty string |
| Gemini.NotOkMessage | services/gemini.ts:210-213 | the error for a failed response is "Erro na API ", the status, ": ", then the body, or the status text when the body is empty, and nothing else: its length is exactly the sum of those parts |
| Gemini.RequestFor | services/gemini.ts:159-201 | the request carries the resolved key and the mode's instruction; its first part is the final prompt; it has an image part exactly when both the payload and the type are non-empty |
| Gemini.BringToLife | services/gemini.ts:144-225 | with no resolved key it throws the missing-key error and posts nothing; otherwise it posts exactly one request; an answer yields the cleaned text; a failed response yields the status error; a thrown fetch is passed on; storage is what key resolution leaves |
| Gemini.NoKeyNoRequest | services/gemini.ts:151-157 | with no usable key anywhere, nothing is posted, the missing-key error is thrown and storage is untouched, whatever the server would answer |
| Gemini.NoAnswerNoPage | services/gemini.ts:210-224 | without an answer from the server, no page is returned |
| Gemini.ImageSentInline | services/gemini.ts:160-190 | with a key, an image and a type, the request carries the mode's image prompt and the image inline |
| Gemini.Http429IsQuota | services/gemini.ts:210-213 | a response rejected with status 429 is reported as a quota error once normalized |
| App.Fill | App.tsx:224-228 | filling keeps a truthy id and a non-zero timestamp, and otherwise uses the fresh id and the current time; image is kept; name and html are kept, a missing one becoming `""` |
| App.FillKeepsCompleteRecord | App.tsx:224-228 | a record with every field present is left exactly as it was |
| App.ValidExamples | App.tsx:64-76 | every example that arrived is kept, filled in, once and in the order of the URLs: one that arrived lands at the number of arrivals before it, and there are exactly as many entries as arrivals; every entry comes from an arrival; all of them when all arrive; none when none arrive |
| App.InitHistory | App.tsx:37-81 | a saved non-empty list is the history; otherwise exactly the examples that arrived, as ValidExamples places them, one per arrived fetch; if fetching throws, the history stays as it was; at most three examples |
| App.SavedHistoryWins | App.tsx:53-54 | with a saved non-empty list, the result does not depend on the network |
| App.IsQuotaError | App.tsx:93 | a write error counts as a full storage only under the names "QuotaExceededError" and "NS_ERROR_DOM_QUOTA_REACHED" |
| App.EmptyOrUnreadableLoadsExamples | App.tsx:41-76 | an empty saved list, an unreadable one and a missing one all lead to the examples |
| App.StripImages | App.tsx:100-103 | the fallback list has the same length and order, clears every image, and keeps id, name, html and timestamp |
| App.StripImagesIdempotent | App.tsx:100-103 | stripping twice is stripping once, and a list without images is unchanged |
| App.Persist | App.tsx:87-114 | an empty history writes nothing; a successful first write stores the full history; what is stored is the history or its stripped form; a stripped form is stored only after a quota error; after a quota error the stripped form is stored if its own write succeeds, and nothing otherwise; any other error stores nothing |
| App.PersistKeepsCode | App.tsx:97-104 | whatever is written keeps every creation's id and code, in order |
| App.PersistThenLoad | App.tsx:41-54 | what the save effect writes is exactly what the next start-up loads |
| App.SecondField | App.tsx:124 | `split(',')[1]` is missing exactly when there is no comma; otherwise it is the text that starts right after the first comma and runs up to the next comma or the end, and contains no comma |
| App.DataUrlPayload | App.tsx:117-131 | splitting a data URL at its comma recovers the base64 payload |
| App.RouteAttachment | App.tsx:156-168 | without a file, the prompt is unchanged; a failed read throws; a `text/plain` file appends the header and its text to the prompt, with no image; any other file keeps the prompt and yields the payload and the lower-cased type |
| App.AttachmentRoutesExclusive | App.tsx:160-168 | an image payload is present exactly for a non-text file whose data URL has a comma, and then the prompt is unchanged |
| App.ImageAttachmentPayload | App.tsx:160-167 | an image read as a data URL reaches the handler as its payload with the lower-cased type |
| App.DefaultName | App.tsx:173-177 | without a file, each mode names a creation differently: "Projeto Da Vinci" for `davinci`, "Artefato Híbrido" for `fusion`, "Novo App" otherwise |
| App.NameFor | App.tsx:173-181 | a creation is named after its file, or after its mode: "Projeto Da Vinci", "Artefato Híbrido" or "Novo App" |
| App.OriginalImage | App.tsx:184 | the stored image is the data URL of the type and payload exactly when both are non-empty |
| App.Conclude | App.tsx:172-196 | a non-empty page adds exactly one creation at the front and shows it; an empty page or a thrown error leaves the history unchanged and shows nothing; generation is over in every case |
| App.HandleGenerate | App.tsx:150-197 | the history grows by at most one creation, at the front: the new one has the fresh id, the current time, the expected name and a non-empty page, and is shown; otherwise the history is unchanged and nothing is shown |
| App.GenerateAddsIffPage | App.tsx:170-189 | a creation is added exactly when the generator returns a non-empty page, and it carries that page and the attached image |
| App.GenerateKeepsHistoryWellFormed | App.tsx:179-188 | with a fresh id and a clock that has not gone back, the history keeps distinct ids and stays newest first |
| App.ThrowingGeneratorChangesNothing | App.tsx:191-196 | a generator that throws leaves the history unchanged and nothing shown |
| App.ShiftedCall | App.tsx:170 | as written, a non-blank prompt is posted as the API key, and the persona is always the app one |
| App.PromptSentAsApiKey | App.tsx:170 | as written, a text-only prompt is posted as the key, and the request carries only the app default prompt |
| App.ImagePayloadNotSent | App.tsx:160-170 | as written, an attached image is posted with its type as the payload and the mode name as the type, both with a non-blank prompt (which becomes the key) and with a blank one when a key is stored |
| App.IntendedCall | services/gemini.ts:144-150 | the intended call uses the stored key and the selected mode's persona, sends the final prompt first, and posts nothing exactly when no key is stored |
| App.PromptSentAsPrompt | services/gemini.ts:160-183 | with the intended call, a text prompt is posted as the only part, under the selected persona |
| App.ImageReachesRequest | services/gemini.ts:160-190 | with the intended call, an attached image is posted inline with its payload and lower-cased type, under the mode's image prompt |
| App.FailedExchangeThrows | services/gemini.ts:210-213 | when no exchange is answered, the intended generator throws, whatever it is asked |
| App.HandleImport | App.tsx:212-249 | no file, a parse error or a record without truthy html and name leave the session unchanged; otherwise the record, filled in, is shown and is in the history, and the history is unchanged exactly when its id was already there, and otherwise grows by one at the front |
| App.ImportShowsRecord | App.tsx:223-237 | a valid import is shown with its own name and code, and is added exactly when its id is new |
| App.ImportKeepsIdsDistinct | App.tsx:230-234 | importing never creates a duplicate id |
| App.ImportIdempotent | App.tsx:230-234 | importing the same record, with its own id, twice gives the same history as once |
| App.LandingStart | App.tsx:252-259 | the workspace is entered in the chosen mode; with a prompt or a file, generation runs on the entered session; with neither, nothing else happens |
| App.LandingGeneratesIffInput | App.tsx:255-258 | with no prompt and no file the generator is never consulted; with a prompt or a readable file, including a file with no prompt, and a generator that returns a page, one creation carrying that page is added at the front and shown |

## Left out

- The HTTP call itself is not modelled. This covers URL and key
  encoding, the JSON payload, response parsing and `safeReadText`
  (services/gemini.ts:193-215, 231-237). The exchange is the `reply`
  parameter of `Gemini.BringToLife`, and the status is given as its
  decimal text.
- The `temperature: 0.7` setting is not modelled; it is a floating-point
  constant passed through.
- The system instruction texts (services/gemini.ts:23-80) are not
  modelled. Only the choice among them is, as `Gemini.Instruction`.
- `initDB` is not modelled, nor the version and upgrade handling
  (services/storage.ts:18-39). Whether the database opens, and whether the
  request succeeds, are inputs.
- A failed `getAll` request is not modelled. In services/storage.ts it
  rejects the returned promise, outside the `try`.
- Storage.GetHistory: the order among records with equal timestamps is
  left open. IndexedDB returns them in key order and the sort is stable;
  the model only promises newest first.
- Timestamps are integers of milliseconds. `new Date(x)` is the identity,
  and invalid dates are not modelled.
- JSON is abstract:
  - a saved history is given already parsed (`App.Saved`);
  - an import or an example is given as a record of optional fields;
  - extra fields carried along by `...item` are not modelled;
  - a missing name or html in a fetched example becomes `""`;
  - `JSON.stringify` of a thrown non-`Error` value is given as its text,
    or as the fact that it gives `undefined` or throws.
- Text.ToLower: maps only the ASCII capitals A-Z, while JavaScript's
  `toLowerCase` also lowers other scripts. Matching against the ASCII
  clue words is unaffected, apart from characters whose lower case is
  ASCII (such as the Kelvin sign).
- Gemini.ResolveGeminiApiKey: `localStorage.getItem` and `setItem`
  (services/gemini.ts:98, 101, 104) are taken never to throw. A browser
  that blocks storage, or a full storage on the migration write, would
  make the function throw; the model has no such outcome.
- Gemini.NormalizeGeminiError: when it throws, the model says only that
  it does (`None`), not which `TypeError` is raised. An `Error` whose
  `message` is not a string is not modelled.
- The `FileReader` is not modelled. A file's contents are given, and a
  failed read or a non-string result is `None`.
- `crypto.randomUUID()`, `Date.now()` and the `setItem` exceptions are
  parameters.
- React scheduling is not modelled. Each handler is applied to the
  session it is given, and the save effect is a separate function applied
  to the new history.
- These parts of App.tsx are not modelled:
  - the body class toggling;
  - `alert` and `console`;
  - `handleReset`, `handleSelectCreation` and `handleImportClick`;
  - the reset of the import input (App.tsx:246);
  - all JSX.
- components/LandingPage.tsx and components/InputArea.tsx are not part of
  this model; they are UI. Two of their guards decide what reaches the
  handlers, and neither is modelled:
  - InputArea.tsx:72 passes on only files whose type starts with
    `image/`, or is `application/pdf` or `text/plain`, and calls the
    handler with an empty prompt. `App.RouteAttachment` accepts any file.
  - LandingPage.tsx:74 starts only when the trimmed prompt is non-empty or
    a file is chosen. `App.LandingStart` takes any prompt and tests it
    untrimmed, as App.tsx:256 does.
  The landing page's own key lookup and its saving of a key are not
  modelled either.
- Concurrency is not modelled; the model is sequential. Overlapping
  generations are an effect of the asynchronous UI.
- App.tsx does not use services/storage.ts, and no migration between them
  is modelled.

## Findings

| source | as written | input that shows it | evidently intended | confidence | as-written member | corrected member |
|---|---|---|---|---|---|---|
| services/gemini.ts:126 | the quota test is `lower.includes("rate")`, which also matches "rate" inside any word | "Erro na API 404: model is not supported for generateContent": "generateContent" contains "rate", so a missing-model error would be reported as an exhausted quota, wherever the function is called | "rate" only as a word of its own, as in "rate limit" | medium, not executed | Gemini.RateInsideWordIsQuota | Gemini.ClassifyIntended |
| App.tsx:170 | `bringToLife(augmentedPrompt, imageBase64, mimeType, selectedMode)` against the signature `(apiKey, prompt, fileBase64, mimeType, mode)` at services/gemini.ts:144-150 | the prompt "um relógio" with no file: the request is posted with "um relógio" as the API key, the app default prompt as its text and the app persona, whatever mode was chosen | `bringToLife(undefined, augmentedPrompt, imageBase64, mimeType, selectedMode)` | high, not executed | App.PromptSentAsApiKey | App.IntendedCall |

For the first finding:

- Gemini.ClassifiersDifferOnlyOnEmbeddedRate states that the two
  classifiers disagree exactly on this kind of message.
- Gemini.RateInsideWordIsGenericWhenIntended states that the corrected
  classifier classes the 404 as generic.

For the second finding:

- App.ImagePayloadNotSent states that, as written, an attached image never
  reaches the request.
- App.ImageReachesRequest states that, with the intended call, the image
  is posted inline.
- App.PromptSentAsPrompt states that, with the intended call, the prompt
  is posted as the prompt.

=== FILE: app.dfy ===
/** The application shell: loading and saving the history in `localStorage`,
    turning a prompt and an attachment into a creation, importing a saved
    creation, and leaving the landing page. Each handler is a function from
    the session before to the session after; the browser's answers (reads,
    fetches, `crypto.randomUUID()`, `Date.now()`) are inputs. */
module App {
  import opened Wrappers
  import opened Text
  import opened Creations
  import opened Gemini

  /** The React state of the application. */
  datatype Session = Session(
    started: bool,
    active: Option<Creation>,
    generating: bool,
    history: seq<Creation>,
    mode: Mode)

  // ---------------------------------------------------------------------
  // Records read from JSON
  // ---------------------------------------------------------------------

  /** A record as parsed from JSON: every field may be missing. */
  datatype RawRecord = RawRecord(
    id: Option<string>,
    name: Option<string>,
    html: Option<string>,
    originalImage: Option<string>,
    timestamp: Option<int>)

  /** `{ ...data, timestamp: data.timestamp || now, id: data.id || uuid }`.
      A timestamp of 0 is falsy and is replaced too. */
  function Fill(raw: RawRecord, now: int, uuid: string): (c: Creation)
    ensures c.id == (if Truthy(raw.id) then raw.id.value else uuid)
    ensures raw.timestamp.Some? && raw.timestamp.value != 0 ==> c.timestamp == raw.timestamp.value
    ensures raw.timestamp.None? || raw.timestamp.value == 0 ==> c.timestamp == now
    ensures Truthy(raw.name) ==> c.name == raw.name.value
    ensures Truthy(raw.html) ==> c.html == raw.html.value
    ensures c.originalImage == raw.originalImage
    ensures c.name == OrEmpty(raw.name) && c.html == OrEmpty(raw.html)
  {
    Creation(
      if Truthy(raw.id) then raw.id.value else uuid,
      OrEmpty(raw.name),
      OrEmpty(raw.html),
      raw.originalImage,
      if raw.timestamp.Some? && raw.timestamp.value != 0 then raw.timestamp.value else now)
  }

  /** A record that carries every field survives filling unchanged. */
  lemma FillKeepsCompleteRecord(c: Creation, now: int, uuid: string)
    requires c.id != "" && c.name != "" && c.html != "" && c.timestamp != 0
    ensures Fill(RawRecord(Some(c.id), Some(c.name), Some(c.html), c.originalImage, Some(c.timestamp)), now, uuid) == c
  {
  }

  // ---------------------------------------------------------------------
  // Loading the history (App.tsx, initHistory)
  // ---------------------------------------------------------------------

  /** The three example creations fetched for a new user. */
  const ExampleUrls: seq<string> := [
    "https://storage.googleapis.com/sideprojects-asronline/bringanythingtolife/vibecode-blog.json",
    "https://storage.googleapis.com/sideprojects-asronline/bringanythingtolife/cassette.json",
    "https://storage.googleapis.com/sideprojects-asronline/bringanythingtolife/chess.json"
  ]

  /** What `localStorage.getItem("gemini_app_history")` gives after parsing: nothing
      (missing or `""`), text that does not parse to a list, or a list. */
  datatype Saved = NothingSaved | Unreadable | SavedList(items: seq<Creation>)

  /** One example fetch: a response that is not `ok`, or a parsed record
      with the clock and the fresh identifier at that moment. */
  datatype ExampleFetch = NotOkFetch | Fetched(data: RawRecord, now: int, uuid: string)

  /** `c` is one of the fetches that arrived, filled in. */
  predicate FilledFrom(fs: seq<ExampleFetch>, c: Creation)
  {
    exists j | 0 <= j < |fs| :: fs[j].Fetched? && c == Fill(fs[j].data, fs[j].now, fs[j].uuid)
  }

  /** How many of the fetches arrived. */
  function Arrived(fs: seq<ExampleFetch>): (n: nat)
    ensures n <= |fs|
  {
    if fs == [] then 0 else (if fs[0].Fetched? then 1 else 0) + Arrived(fs[1..])
  }

  /** The two extremes: when every fetch arrives all are counted, and when
      none does none is. */
  lemma {:induction false} ArrivedExtremes(fs: seq<ExampleFetch>)
    ensures (forall j | 0 <= j < |fs| :: fs[j].Fetched?) ==> Arrived(fs) == |fs|
    ensures (forall j | 0 <= j < |fs| :: fs[j].NotOkFetch?) ==> Arrived(fs) == 0
  {
    if fs != [] {
      assert forall j | 0 <= j < |fs[1..]| :: fs[1..][j] == fs[j + 1];
      ArrivedExtremes(fs[1..]);
    }
  }

  /** The examples that arrived, filled in, in the order of the URLs: the
      fetch at index `j` lands at the number of arrivals before it. */
  function ValidExamples(fs: seq<ExampleFetch>): (r: seq<Creation>)
    ensures |r| <= |fs|
    ensures |r| == Arrived(fs)
    ensures forall j | 0 <= j < |fs| && fs[j].Fetched? ::
      Arrived(fs[..j]) < |r| && r[Arrived(fs[..j])] == Fill(fs[j].data, fs[j].now, fs[j].uuid)
    ensures forall i | 0 <= i < |r| :: FilledFrom(fs, r[i])
    ensures (forall j | 0 <= j < |fs| :: fs[j].Fetched?) ==> |r| == |fs|
    ensures (forall j | 0 <= j < |fs| :: fs[j].NotOkFetch?) ==> r == []
  {
    if fs == [] then []
    else
      var rest := ValidExamples(fs[1..]);
      var r := if fs[0].Fetched? then [Fill(fs[0].data, fs[0].now, fs[0].uuid)] + rest else rest;
      StepPlaces(fs, rest, r);
      StepCovers(fs, rest, r);
      ArrivedExtremes(fs);
      r
  }

  /** One step of `ValidExamples`: where the rest's result puts each later
      fetch, the result puts it one further if the first fetch arrived. */
  lemma StepPlaces(fs: seq<ExampleFetch>, rest: seq<Creation>, r: seq<Creation>)
    requires fs != []
    requires |rest| == Arrived(fs[1..])
    requires forall j | 0 <= j < |fs[1..]| && fs[1..][j].Fetched? ::
      Arrived(fs[1..][..j]) < |rest| && rest[Arrived(fs[1..][..j])] == Fill(fs[1..][j].data, fs[1..][j].now, fs[1..][j].uuid)
    requires r == if fs[0].Fetched? then [Fill(fs[0].data, fs[0].now, fs[0].uuid)] + rest else rest
    ensures forall j | 0 <= j < |fs| && fs[j].Fetched? ::
      Arrived(fs[..j]) < |r| && r[Arrived(fs[..j])] == Fill(fs[j].data, fs[j].now, fs[j].uuid)
  {
    forall j | 0 <= j < |fs| && fs[j].Fetched?
      ensures Arrived(fs[..j]) < |r| && r[Arrived(fs[..j])] == Fill(fs[j].data, fs[j].now, fs[j].uuid)
    {
      if j > 0 {
        assert fs[1..][j - 1] == fs[j];
        PlacedLater(fs, rest, r, j);
      }
    }
  }

  /** A later fetch that arrived sits where the rest's result put it,
      shifted by the first fetch. */
  lemma PlacedLater(fs: seq<ExampleFetch>, rest: seq<Creation>, r: seq<Creation>, j: int)
    requires 1 <= j < |fs| && fs[j].Fetched?
    requires Arrived(fs[1..][..j - 1]) < |rest|
    requires rest[Arrived(fs[1..][..j - 1])] == Fill(fs[j].data, fs[j].now, fs[j].uuid)
    requires r == if fs[0].Fetched? then [Fill(fs[0].data, fs[0].now, fs[0].uuid)] + rest else rest
    ensures Arrived(fs[..j]) < |r| && r[Arrived(fs[..j])] == Fill(fs[j].data, fs[j].now, fs[j].uuid)
  {
    ArrivedBefore(fs, j);
  }

  /** One step of `ValidExamples`: every entry still comes from a fetch
      that arrived. */
  lemma StepCovers(fs: seq<ExampleFetch>, rest: seq<Creation>, r: seq<Creation>)
    requires fs != []
    requires forall i | 0 <= i < |rest| :: FilledFrom(fs[1..], rest[i])
    requires r == if fs[0].Fetched? then [Fill(fs[0].data, fs[0].now, fs[0].uuid)] + rest else rest
    ensures forall i | 0 <= i < |r| :: FilledFrom(fs, r[i])
  {
    forall i | 0 <= i < |r| ensures FilledFrom(fs, r[i])
    {
      if fs[0].Fetched? && i == 0 {
        assert fs[0].Fetched? && r[0] == Fill(fs[0].data, fs[0].now, fs[0].uuid);
      } else {
        var k := if fs[0].Fetched? then i - 1 else i;
        assert r[i] == rest[k] && FilledFrom(fs[1..], rest[k]);
        var j :| 0 <= j < |fs[1..]| && fs[1..][j].Fetched? &&
          rest[k] == Fill(fs[1..][j].data, fs[1..][j].now, fs[1..][j].uuid);
        assert fs[j + 1] == fs[1..][j];
        assert fs[j + 1].Fetched? && r[i] == Fill(fs[j + 1].data, fs[j + 1].now, fs[j + 1].uuid);
      }
    }
  }

  /** The arrivals before index `j` are the first fetch's, if it arrived,
      plus those before `j` among the rest. */
  lemma ArrivedBefore(fs: seq<ExampleFetch>, j: int)
    requires 1 <= j <= |fs|
    ensures Arrived(fs[..j]) == (if fs[0].Fetched? then 1 else 0) + Arrived(fs[1..][..j - 1])
  {
    assert fs[..j][1..] == fs[1..][..j - 1];
  }

  /** The history the mount effect leaves: a saved non-empty list wins;
      otherwise the examples that arrived; if fetching throws, the history
      is left as it was. */
  function InitHistory(current: seq<Creation>, saved: Saved, examples: Option<seq<ExampleFetch>>): (r: seq<Creation>)
    requires examples.Some? ==> |examples.value| == |ExampleUrls|
    ensures saved.SavedList? && saved.items != [] ==> r == saved.items
    ensures !(saved.SavedList? && saved.items != []) && examples.None? ==> r == current
    ensures !(saved.SavedList? && saved.items != []) && examples.Some? ==> |r| <= |ExampleUrls|
    ensures !(saved.SavedList? && saved.items != []) && examples.Some? ==>
      r == ValidExamples(examples.value) && |r| == Arrived(examples.value)
  {
    var loaded := if saved.SavedList? then saved.items else [];
    if |loaded| > 0 then loaded
    else if examples.None? then current
    else ValidExamples(examples.value)
  }

  /** Examples are consulted only when nothing usable was saved: with a
      saved list, what the network does is irrelevant. */
  lemma SavedHistoryWins(current: seq<Creation>, items: seq<Creation>,
                         e1: Option<seq<ExampleFetch>>, e2: Option<seq<ExampleFetch>>)
    requires items != []
    requires e1.Some? ==> |e1.value| == |ExampleUrls|
    requires e2.Some? ==> |e2.value| == |ExampleUrls|
    ensures InitHistory(current, SavedList(items), e1) == InitHistory(current, SavedList(items), e2)
  {
  }

  /** An empty saved list, an unreadable one and no list at all all lead to
      the examples. */
  lemma EmptyOrUnreadableLoadsExamples(current: seq<Creation>, saved: Saved, examples: seq<ExampleFetch>)
    requires |examples| == |ExampleUrls|
    requires saved == SavedList([]) || saved == Unreadable || saved == NothingSaved
    ensures InitHistory(current, saved, Some(examples)) == ValidExamples(examples)
  {
  }

  // ---------------------------------------------------------------------
  // Saving the history (App.tsx, the effect on `history`)
  // ---------------------------------------------------------------------

  /** The error names browsers use for a full `localStorage`. */
  predicate IsQuotaError(name: string)
  {
    name == "QuotaExceededError" || name == "NS_ERROR_DOM_QUOTA_REACHED"
  }

  /** `history.map(item => ({ ...item, originalImage: undefined }))`. */
  function StripImages(h: seq<Creation>): (r: seq<Creation>)
    ensures |r| == |h|
    ensures forall i | 0 <= i < |h| :: r[i].originalImage == None
    ensures forall i | 0 <= i < |h| ::
      r[i].id == h[i].id && r[i].name == h[i].name && r[i].html == h[i].html && r[i].timestamp == h[i].timestamp
  {
    seq(|h|, i requires 0 <= i < |h| => h[i].(originalImage := None))
  }

  /** Stripping is idempotent, and a history without images is left as is. */
  lemma StripImagesIdempotent(h: seq<Creation>)
    ensures StripImages(StripImages(h)) == StripImages(h)
    ensures (forall i | 0 <= i < |h| :: h[i].originalImage == None) ==> StripImages(h) == h
  {
  }

  /** What the save effect leaves under `"gemini_app_history"`, given what
      `setItem` throws (`None` when it succeeds): nothing for an empty
      history; the whole history; after a quota error, the history without
      images; or nothing when that fails too or the error is another one. */
  function Persist(h: seq<Creation>, setItem: seq<Creation> -> Option<string>): (w: Option<seq<Creation>>)
    ensures h == [] ==> w == None
    ensures h != [] && setItem(h) == None ==> w == Some(h)
    ensures w.Some? ==> w.value == h || w.value == StripImages(h)
    ensures w.Some? && w.value != h ==> setItem(h).Some? && IsQuotaError(setItem(h).value)
    ensures h != [] && setItem(h).Some? && !IsQuotaError(setItem(h).value) ==> w == None
    ensures h != [] && setItem(h).Some? && IsQuotaError(setItem(h).value) ==>
      w == (if setItem(StripImages(h)).None? then Some(StripImages(h)) else None)
  {
    if h == [] then None
    else
      match setItem(h)
      case None => Some(h)
      case Some(name) =>
        if IsQuotaError(name) then
          match setItem(StripImages(h))
          case None => Some(StripImages(h))
          case Some(_) => None
        else None
  }

  /** The fallback keeps every generated page: whatever is written has the
      same creations, in the same order, with the same code. */
  lemma PersistKeepsCode(h: seq<Creation>, setItem: seq<Creation> -> Option<string>)
    ensures var w := Persist(h, setItem);
      w.Some? ==> (|w.value| == |h| &&
        forall i | 0 <= i < |h| :: w.value[i].id == h[i].id && w.value[i].html == h[i].html)
  {
  }

  /** Saving then loading: whatever was written is what the next start-up
      shows, and the examples are not fetched again. */
  lemma PersistThenLoad(h: seq<Creation>, setItem: seq<Creation> -> Option<string>,
                        current: seq<Creation>, examples: Option<seq<ExampleFetch>>)
    requires examples.Some? ==> |examples.value| == |ExampleUrls|
    requires Persist(h, setItem).Some?
    ensures var w := Persist(h, setItem).value;
      InitHistory(current, SavedList(w), examples) == w && |w| == |h|
  {
  }

  // ---------------------------------------------------------------------
  // Attachments (App.tsx, handleGenerate and its file readers)
  // ---------------------------------------------------------------------

  /** An uploaded file: its name, its `type`, and what the `FileReader`
      yields for the read the handler asks of it (the text, or the data
      URL); `None` when the read fails. */
  datatype File = File(name: string, mimeType: string, contents: Option<string>)

  /** The text in front of the first comma (all of `s` if it has none). */
  function UpToComma(s: string): (r: string)
    ensures StartsWith(s, r) && ',' !in r
    ensures |r| == |s| || s[|r|] == ','
  {
    if s == [] || s[0] == ',' then []
    else [s[0]] + UpToComma(s[1..])
  }

  /** `s.split(',')[1]`: the field between the first and second commas, or
      `undefined` when there is no comma. */
  function SecondField(s: string): (r: Option<string>)
    ensures r.None? <==> ',' !in s
    ensures r.Some? ==> ',' !in r.value
    ensures r.Some? ==>
      var i := |UpToComma(s)|;
      && i < |s| && s[i] == ','
      && StartsWith(s[i + 1..], r.value)
      && (i + 1 + |r.value| == |s| || s[i + 1 + |r.value|] == ',')
  {
    var head := UpToComma(s);
    if |head| == |s| then
      assert s == head;
      None
    else
      assert s[|head|] in s;
      Some(UpToComma(s[|head| + 1..]))
  }

  /** `data:<type>;base64,<payload>`, as a reader produces and as a
      creation stores its image. */
  function DataUrl(mimeType: string, base64: string): string
  {
    "data:" + mimeType + ";base64," + base64
  }

  lemma {:induction false} UpToCommaOf(a: string, b: string)
    requires ',' !in a
    ensures UpToComma(a + "," + b) == a
  {
    if a != [] {
      assert (a + "," + b)[1..] == a[1..] + "," + b;
      UpToCommaOf(a[1..], b);
    }
  }

  lemma {:induction false} UpToCommaAll(a: string)
    requires ',' !in a
    ensures UpToComma(a) == a
  {
    if a != [] {
      UpToCommaAll(a[1..]);
    }
  }

  /** Splitting a data URL at its comma recovers the payload. */
  lemma DataUrlPayload(mimeType: string, base64: string)
    requires ',' !in mimeType && ',' !in base64
    ensures SecondField(DataUrl(mimeType, base64)) == Some(base64)
  {
    var head := "data:" + mimeType + ";base64";
    assert ',' !in head;
    assert DataUrl(mimeType, base64) == head + "," + base64;
    UpToCommaOf(head, base64);
    assert DataUrl(mimeType, base64)[|head| + 1..] == base64;
    UpToCommaAll(base64);
  }

  /** The marker placed between the prompt and the text of an attached file. */
  const AttachmentHeader: string := "\n\n[CONTEÚDO DO ARQUIVO ANEXO]:\n"

  /** What the handler passes on: the prompt, and the image with its type. */
  datatype Routed = Routed(prompt: string, imageBase64: Option<string>, mimeType: Option<string>)

  /** A plain-text file (type exactly `text/plain`) is appended to the
      prompt; any other file is read as a data URL and sent as an image
      with its type lower-cased. `None` when reading throws. */
  function RouteAttachment(promptText: string, file: Option<File>): (r: Option<Routed>)
    ensures file.None? ==> r == Some(Routed(promptText, None, None))
    ensures file.Some? ==> (r.None? <==> file.value.contents.None?)
    ensures r.Some? ==> StartsWith(r.value.prompt, promptText)
    ensures r.Some? && file.Some? && file.value.mimeType == "text/plain" ==>
      && r.value.imageBase64.None? && r.value.mimeType.None?
      && r.value.prompt[|promptText|..] == AttachmentHeader + file.value.contents.value
    ensures r.Some? && file.Some? && file.value.mimeType != "text/plain" ==>
      && r.value.prompt == promptText
      && r.value.mimeType == Some(ToLower(file.value.mimeType))
      && r.value.imageBase64 == SecondField(file.value.contents.value)
  {
    match file
    case None => Some(Routed(promptText, None, None))
    case Some(f) =>
      match f.contents
      case None => None
      case Some(text) =>
        if f.mimeType == "text/plain" then
          var p := promptText + AttachmentHeader + text;
          assert p[..|promptText|] == promptText;
          Some(Routed(p, None, None))
        else
          Some(Routed(promptText, SecondField(text), Some(ToLower(f.mimeType))))
  }

  /** A plain-text file is never sent as an image, and an image never
      changes the prompt. */
  lemma AttachmentRoutesExclusive(promptText: string, file: Option<File>)
    requires RouteAttachment(promptText, file).Some?
    ensures var r := RouteAttachment(promptText, file).value;
      r.imageBase64.Some? <==> file.Some? && file.value.mimeType != "text/plain" && ',' in file.value.contents.value
    ensures var r := RouteAttachment(promptText, file).value;
      r.imageBase64.Some? ==> r.prompt == promptText
  {
  }

  /** An image read by the browser reaches the request with its payload. */
  lemma ImageAttachmentPayload(promptText: string, name: string, mimeType: string, base64: string)
    requires mimeType != "text/plain" && ',' !in mimeType && ',' !in base64
    ensures RouteAttachment(promptText, Some(File(name, mimeType, Some(DataUrl(mimeType, base64)))))
      == Some(Routed(promptText, Some(base64), Some(ToLower(mimeType))))
  {
    DataUrlPayload(mimeType, base64);
  }

  // ---------------------------------------------------------------------
  // Generating (App.tsx, handleGenerate)
  // ---------------------------------------------------------------------

  const DavinciDefaultName: string := "Projeto Da Vinci"
  const FusionDefaultName: string := "Artefato Híbrido"
  const AppDefaultName: string := "Novo App"

  /** Each mode has a name of its own for a creation made without a file. */
  function DefaultName(mode: Mode): (r: string)
    ensures r != ""
    ensures r == DavinciDefaultName <==> mode == DavinciMode
    ensures r == FusionDefaultName <==> mode == FusionMode
    ensures r == AppDefaultName <==> mode == AppMode
  {
    match mode
    case DavinciMode => DavinciDefaultName
    case FusionMode => FusionDefaultName
    case AppMode => AppDefaultName
  }

  /** The file's name, or the mode's default name without a file. */
  function NameFor(file: Option<File>, mode: Mode): (r: string)
    ensures file.Some? ==> r == file.value.name
    ensures file.None? ==> r == DefaultName(mode) && r != ""
  {
    if file.Some? then file.value.name else DefaultName(mode)
  }

  /** The image kept with a creation: its data URL when both the payload
      and the type are non-empty. */
  function OriginalImage(r: Routed): (img: Option<string>)
    ensures img.Some? <==> Truthy(r.imageBase64) && Truthy(r.mimeType)
    ensures img.Some? ==> img.value == DataUrl(r.mimeType.value, r.imageBase64.value)
  {
    if Truthy(r.imageBase64) && Truthy(r.mimeType) then
      Some(DataUrl(r.mimeType.value, r.imageBase64.value))
    else None
  }

  /** After the generator returns: a non-empty page becomes a new creation,
      first in the history and shown; an empty page or a thrown error
      changes nothing but the flags. */
  function Conclude(s: Session, html: Result<string, string>, name: string,
                    image: Option<string>, uuid: string, now: int): (r: Session)
    ensures !r.generating && r.started == s.started && r.mode == s.mode
    ensures html.Success? && html.value != "" ==>
      && |r.history| == |s.history| + 1 && r.history[1..] == s.history
      && r.active == Some(r.history[0])
      && r.history[0] == Creation(uuid, name, html.value, image, now)
    ensures !(html.Success? && html.value != "") ==> r.history == s.history && r.active == None
  {
    match html
    case Success(page) =>
      if page != "" then
        var c := Creation(uuid, name, page, image, now);
        s.(history := [c] + s.history, active := Some(c), generating := false)
      else
        s.(active := None, generating := false)
    case Failure(_) =>
      s.(active := None, generating := false)
  }

  /** What the handler hands to the generator: the prompt (with any text
      attachment), the image and its type, and the selected mode. */
  datatype Call = Call(prompt: string, imageBase64: Option<string>, mimeType: Option<string>, mode: Mode)

  /** The generator: the page it returns, or the message of what it throws. */
  type Generator = Call -> Result<string, string>

  /** `handleGenerate`: read the attachment, call the generator once, and
      conclude. A failed read skips the call and changes nothing but the
      flags. */
  function HandleGenerate(
    s: Session, promptText: string, file: Option<File>, selectedMode: Mode,
    generate: Generator, uuid: string, now: int): (r: Session)
    ensures !r.generating && r.started == s.started && r.mode == s.mode
    ensures RouteAttachment(promptText, file).None? ==> r.history == s.history && r.active == None
    ensures |r.history| == |s.history| || |r.history| == |s.history| + 1
    ensures |r.history| == |s.history| + 1 ==>
      && r.history[1..] == s.history
      && r.active == Some(r.history[0])
      && r.history[0].id == uuid && r.history[0].timestamp == now
      && r.history[0].name == NameFor(file, selectedMode)
      && r.history[0].html != ""
    ensures |r.history| == |s.history| ==> r.history == s.history && r.active == None
  {
    match RouteAttachment(promptText, file)
    case None => s.(active := None, generating := false)
    case Some(a) =>
      var html := generate(Call(a.prompt, a.imageBase64, a.mimeType, selectedMode));
      Conclude(s, html, NameFor(file, selectedMode), OriginalImage(a), uuid, now)
  }

  /** Exactly when the generator returns a non-empty page is one creation
      added, carrying that page and the attached image. */
  lemma GenerateAddsIffPage(
    s: Session, promptText: string, file: Option<File>, selectedMode: Mode,
    generate: Generator, uuid: string, now: int)
    requires RouteAttachment(promptText, file).Some?
    ensures var a := RouteAttachment(promptText, file).value;
      var html := generate(Call(a.prompt, a.imageBase64, a.mimeType, selectedMode));
      var r := HandleGenerate(s, promptText, file, selectedMode, generate, uuid, now);
      && (|r.history| == |s.history| + 1 <==> html.Success? && html.value != "")
      && (|r.history| == |s.history| + 1 ==>
            r.history[0] == Creation(uuid, NameFor(file, selectedMode), html.value, OriginalImage(a), now))
  {
  }

  /** A generated page keeps the history free of duplicate identifiers and
      newest first, provided the fresh identifier is new and the clock has
      not gone backwards. */
  lemma GenerateKeepsHistoryWellFormed(
    s: Session, promptText: string, file: Option<File>, selectedMode: Mode,
    generate: Generator, uuid: string, now: int)
    requires DistinctIds(s.history) && NewestFirst(s.history)
    requires !HasId(s.history, uuid)
    requires forall i | 0 <= i < |s.history| :: s.history[i].timestamp <= now
    ensures var h := HandleGenerate(s, promptText, file, selectedMode, generate, uuid, now).history;
      DistinctIds(h) && NewestFirst(h)
  {
    var h := HandleGenerate(s, promptText, file, selectedMode, generate, uuid, now).history;
    if |h| == |s.history| + 1 {
      forall i, j | 0 <= i < j < |h| ensures h[i].id != h[j].id && h[i].timestamp >= h[j].timestamp {
        assert h[j] == s.history[j - 1];
        if i > 0 { assert h[i] == s.history[i - 1]; }
      }
    }
  }

  // ---------------------------------------------------------------------
  // The generator App.tsx wires in
  // ---------------------------------------------------------------------

  function ModeName(mode: Mode): (n: string)
    ensures n != ""
  {
    match mode
    case AppMode => "app"
    case DavinciMode => "davinci"
    case FusionMode => "fusion"
  }

  /** The call as written: `bringToLife(augmentedPrompt, imageBase64,
      mimeType, selectedMode)` fills the first four of the service's five
      parameters, so the prompt lands in `apiKey`, the image payload in
      `prompt` (only ever read through `||`, so `undefined` is `""`), the
      type in `fileBase64`, the mode name in `mimeType`, and the mode falls
      back to `app`. */
  function ShiftedCall(c: Call, ls: LocalStorage, reply: Request -> Reply): (g: Generation)
    ensures Trim(c.prompt) != "" ==> g.sent.Some? && g.sent.value.apiKey == Trim(c.prompt)
    ensures g.sent.Some? ==> g.sent.value.instruction == AppInstruction
  {
    KeyPrecedence(Some(c.prompt), true, ls);
    BringToLife(Some(c.prompt), OrEmpty(c.imageBase64), c.mimeType, Some(ModeName(c.mode)), AppMode, true, ls, reply)
  }

  /** The generator as `App.tsx` wires it in. */
  function ShiftedGenerator(ls: LocalStorage, reply: Request -> Reply): Generator
  {
    c => ShiftedCall(c, ls, reply).result
  }

  /** The request the shifted call builds for an image: the MIME type,
      being truthy, selects the image prompt and becomes the payload. */
  lemma ShiftedRequest(key: string, payload: string, mimeType: string, modeName: string)
    requires mimeType != "" && modeName != ""
    ensures RequestFor(key, payload, Some(mimeType), Some(modeName), AppMode)
      == Request(key, AppInstruction, [TextPart(AppImagePrompt), InlineDataPart(mimeType, modeName)])
  {
    assert FinalPrompt(payload, Some(mimeType), AppMode) == AppImagePrompt;
  }

  /** The request the shifted call builds without an image: no truthy
      `fileBase64` and an empty `prompt` select the default prompt. */
  lemma ShiftedTextRequest(key: string, modeName: string)
    ensures RequestFor(key, "", None, Some(modeName), AppMode)
      == Request(key, AppInstruction, [TextPart(AppDefaultPrompt)])
  {
  }

  /** The shifted call without an attachment: the trimmed prompt is the key. */
  lemma ShiftedCallKey(promptText: string, selectedMode: Mode, ls: LocalStorage, reply: Request -> Reply)
    requires Trim(promptText) != ""
    ensures ShiftedCall(Call(promptText, None, None, selectedMode), ls, reply).sent
      == Some(RequestFor(Trim(promptText), "", None, Some(ModeName(selectedMode)), AppMode))
  {
  }

  /** As written, the user's prompt is posted as the API key, whatever key
      is stored; the prompt itself is replaced by the default one and the
      selected mode never reaches the request. */
  lemma PromptSentAsApiKey(promptText: string, selectedMode: Mode, ls: LocalStorage, reply: Request -> Reply)
    requires Trim(promptText) != ""
    ensures ShiftedCall(Call(promptText, None, None, selectedMode), ls, reply).sent
      == Some(Request(Trim(promptText), AppInstruction, [TextPart(AppDefaultPrompt)]))
  {
    ShiftedCallKey(promptText, selectedMode, ls, reply);
    ShiftedTextRequest(Trim(promptText), ModeName(selectedMode));
  }

  /** As written, an attached image is never posted: the request carries
      its MIME type where the payload belongs and the mode name as type.
      This holds whenever a request is posted at all: with a non-blank
      prompt, which becomes the key, or with a blank one (an image sent on
      its own) and a key in storage. */
  lemma ImagePayloadNotSent(
    promptText: string, name: string, mimeType: string, base64: string,
    selectedMode: Mode, ls: LocalStorage, reply: Request -> Reply)
    requires Trim(promptText) != "" || ResolveGeminiApiKey(None, true, ls).key != ""
    requires mimeType != "" && mimeType != "text/plain" && ',' !in mimeType && ',' !in base64
    ensures var a := RouteAttachment(promptText, Some(File(name, mimeType, Some(DataUrl(mimeType, base64))))).value;
      var g := ShiftedCall(Call(a.prompt, a.imageBase64, a.mimeType, selectedMode), ls, reply);
      && g.sent.Some?
      && g.sent.value.parts == [TextPart(AppImagePrompt), InlineDataPart(ToLower(mimeType), ModeName(selectedMode))]
  {
    ImageAttachmentPayload(promptText, name, mimeType, base64);
    assert ToLower(mimeType) != "" by { assert |ToLower(mimeType)| == |mimeType|; }
    KeyPrecedence(Some(promptText), true, ls);
    KeyPrecedence(None, true, ls);
    ShiftedRequest(ResolveGeminiApiKey(Some(promptText), true, ls).key, base64, ToLower(mimeType), ModeName(selectedMode));
  }

  /** The call evidently meant: `bringToLife(undefined, augmentedPrompt,
      imageBase64, mimeType, selectedMode)`, so the key comes from storage
      and every argument reaches its own parameter. */
  function IntendedCall(c: Call, ls: LocalStorage, reply: Request -> Reply): (g: Generation)
    ensures g.sent.Some? ==>
      && g.sent.value.apiKey == ResolveGeminiApiKey(None, true, ls).key
      && g.sent.value.instruction == InstructionFor(c.mode)
      && |g.sent.value.parts| >= 1
      && g.sent.value.parts[0] == TextPart(FinalPrompt(c.prompt, c.imageBase64, c.mode))
    ensures g.sent.None? <==> ResolveGeminiApiKey(None, true, ls).key == ""
  {
    BringToLife(None, c.prompt, c.imageBase64, c.mimeType, c.mode, true, ls, reply)
  }

  /** The generator the application means to use. */
  function IntendedGenerator(ls: LocalStorage, reply: Request -> Reply): Generator
  {
    c => IntendedCall(c, ls, reply).result
  }

  /** With the intended call, a text prompt is posted as the prompt, under
      the selected mode's persona. */
  lemma PromptSentAsPrompt(promptText: string, selectedMode: Mode, ls: LocalStorage, reply: Request -> Reply)
    requires promptText != ""
    requires ResolveGeminiApiKey(None, true, ls).key != ""
    ensures var g := IntendedCall(Call(promptText, None, None, selectedMode), ls, reply);
      && g.sent.Some?
      && g.sent.value.instruction == InstructionFor(selectedMode)
      && g.sent.value.parts == [TextPart(promptText)]
  {
  }

  /** With the intended call, an attached image is posted inline with its
      payload under the selected mode's image prompt. */
  lemma ImageReachesRequest(
    promptText: string, name: string, mimeType: string, base64: string,
    selectedMode: Mode, ls: LocalStorage, reply: Request -> Reply)
    requires mimeType != "" && mimeType != "text/plain" && ',' !in mimeType && ',' !in base64 && base64 != ""
    requires ResolveGeminiApiKey(None, true, ls).key != ""
    ensures var a := RouteAttachment(promptText, Some(File(name, mimeType, Some(DataUrl(mimeType, base64))))).value;
      var g := IntendedCall(Call(a.prompt, a.imageBase64, a.mimeType, selectedMode), ls, reply);
      && g.sent.Some?
      && g.sent.value.parts == [TextPart(ImagePrompt(selectedMode)), InlineDataPart(base64, ToLower(mimeType))]
  {
    ImageAttachmentPayload(promptText, name, mimeType, base64);
    assert ToLower(mimeType) != "" by { assert |ToLower(mimeType)| == |mimeType|; }
    IntendedImageRequest(ResolveGeminiApiKey(None, true, ls).key, promptText, base64, ToLower(mimeType), selectedMode);
  }

  /** The request the intended call builds for an image. */
  lemma IntendedImageRequest(key: string, promptText: string, base64: string, mimeType: string, mode: Mode)
    requires base64 != "" && mimeType != ""
    ensures RequestFor(key, promptText, Some(base64), Some(mimeType), mode).parts
      == [TextPart(ImagePrompt(mode)), InlineDataPart(base64, mimeType)]
  {
  }

  /** When every exchange fails (a rejected response or a thrown fetch),
      the intended generator throws, whatever it is asked. */
  lemma FailedExchangeThrows(c: Call, ls: LocalStorage, reply: Request -> Reply)
    requires forall q :: !reply(q).Answered?
    ensures IntendedGenerator(ls, reply)(c).Failure?
  {
    IntendedGeneratorCalls(c, ls, reply);
    NoAnswerNoPage(None, c.prompt, c.imageBase64, c.mimeType, c.mode, true, ls, reply);
  }

  lemma IntendedGeneratorCalls(c: Call, ls: LocalStorage, reply: Request -> Reply)
    ensures IntendedGenerator(ls, reply)(c) == IntendedCall(c, ls, reply).result
  {
  }


  /** A generator that throws leaves the history alone and shows nothing. */
  lemma ThrowingGeneratorChangesNothing(
    s: Session, promptText: string, file: Option<File>, selectedMode: Mode,
    generate: Generator, uuid: string, now: int)
    requires forall c :: generate(c).Failure?
    ensures var r := HandleGenerate(s, promptText, file, selectedMode, generate, uuid, now);
      r.history == s.history && r.active == None
  {
    if RouteAttachment(promptText, file).Some? {
      GenerateAddsIffPage(s, promptText, file, selectedMode, generate, uuid, now);
    }
  }

  // ---------------------------------------------------------------------
  // Importing (App.tsx, handleImportFile)
  // ---------------------------------------------------------------------

  /** The import dialog: no file chosen, or a file whose text was parsed
      (`None` when `JSON.parse` or a field access throws), with the clock
      and the fresh identifier at that moment. */
  datatype ImportRead = NoFile | Read(parsed: Option<RawRecord>, now: int, uuid: string)

  /** `handleImportFile`: a record with a truthy `html` and `name` is
      filled in and shown; it joins the history unless its id is already
      there. Anything else leaves the session as it was. */
  function HandleImport(s: Session, read: ImportRead): (r: Session)
    ensures (read.NoFile? || read.parsed.None?) ==> r == s
    ensures (read.Read? && read.parsed.Some? &&
             !(Truthy(read.parsed.value.html) && Truthy(read.parsed.value.name))) ==> r == s
    ensures r != s ==> r.active.Some? && HasId(r.history, r.active.value.id)
    ensures read.Read? && read.parsed.Some? && Truthy(read.parsed.value.html) && Truthy(read.parsed.value.name) ==>
      var c := Fill(read.parsed.value, read.now, read.uuid);
      && r.active == Some(c) && HasId(r.history, c.id)
      && (r.history == s.history <==> HasId(s.history, c.id))
    ensures r.started == s.started && r.mode == s.mode && r.generating == s.generating
    ensures r.history == s.history || (|r.history| == |s.history| + 1 && r.history[1..] == s.history)
  {
    match read
    case NoFile => s
    case Read(parsed, now, uuid) =>
      match parsed
      case None => s
      case Some(raw) =>
        if Truthy(raw.html) && Truthy(raw.name) then
          var c := Fill(raw, now, uuid);
          var h := if HasId(s.history, c.id) then s.history else [c] + s.history;
          assert h[0] == c || HasId(s.history, c.id);
          s.(history := h, active := Some(c))
        else s
  }

  /** A valid import shows the record with its own name and code, and adds
      it exactly when its identifier is new. */
  lemma ImportShowsRecord(s: Session, raw: RawRecord, now: int, uuid: string)
    requires Truthy(raw.html) && Truthy(raw.name)
    ensures var r := HandleImport(s, Read(Some(raw), now, uuid));
      var c := Fill(raw, now, uuid);
      && r.active == Some(c)
      && c.name == raw.name.value && c.html == raw.html.value
      && (HasId(s.history, c.id) <==> r.history == s.history)
      && (!HasId(s.history, c.id) ==> r.history == [c] + s.history)
  {
    var c := Fill(raw, now, uuid);
    if !HasId(s.history, c.id) {
      assert |[c] + s.history| != |s.history|;
    }
  }

  /** Importing never introduces a duplicate identifier. */
  lemma ImportKeepsIdsDistinct(s: Session, read: ImportRead)
    requires DistinctIds(s.history)
    ensures DistinctIds(HandleImport(s, read).history)
  {
    var h := HandleImport(s, read).history;
    if h != s.history {
      var c := h[0];
      forall i, j | 0 <= i < j < |h| ensures h[i].id != h[j].id {
        assert h[j] == s.history[j - 1];
        if i > 0 { assert h[i] == s.history[i - 1]; }
      }
    }
  }

  /** Importing the same file twice is importing it once, as long as the
      record names its own identifier. */
  lemma ImportIdempotent(s: Session, raw: RawRecord, now: int, uuid: string, now2: int, uuid2: string)
    requires Truthy(raw.id)
    ensures var once := HandleImport(s, Read(Some(raw), now, uuid));
      var twice := HandleImport(once, Read(Some(raw), now2, uuid2));
      twice.history == once.history
  {
    var once := HandleImport(s, Read(Some(raw), now, uuid));
    if Truthy(raw.html) && Truthy(raw.name) {
      var c := Fill(raw, now, uuid);
      assert HasId(once.history, c.id);
    }
  }

  // ---------------------------------------------------------------------
  // The landing page (App.tsx, handleLandingStart)
  // ---------------------------------------------------------------------

  /** `handleLandingStart`: enter the workspace in the chosen mode, and
      generate at once when there is a prompt or a file. */
  function LandingStart(
    s: Session, prompt: string, selectedMode: Mode, file: Option<File>,
    generate: Generator, uuid: string, now: int): (r: Session)
    ensures r.started && r.mode == selectedMode
    ensures prompt == "" && file.None? ==> r == s.(mode := selectedMode, started := true)
    ensures prompt != "" || file.Some? ==>
      r == HandleGenerate(s.(mode := selectedMode, started := true), prompt, file, selectedMode, generate, uuid, now)
  {
    var entered := s.(mode := selectedMode, started := true);
    if prompt != "" || file.Some? then
      HandleGenerate(entered, prompt, file, selectedMode, generate, uuid, now)
    else
      entered
  }

  /** Starting without a prompt or a file never calls the generator: the
      outcome is the same whatever it would return. Starting with a prompt
      or a file that can be read, and a generator that returns a page, adds
      that page. */
  lemma LandingGeneratesIffInput(
    s: Session, prompt: string, selectedMode: Mode, file: Option<File>,
    g1: Generator, g2: Generator, uuid: string, now: int)
    ensures prompt == "" && file.None? ==>
      LandingStart(s, prompt, selectedMode, file, g1, uuid, now)
        == LandingStart(s, prompt, selectedMode, file, g2, uuid, now)
    ensures prompt != "" && file.None? && g1(Call(prompt, None, None, selectedMode)).Success?
            && g1(Call(prompt, None, None, selectedMode)).value != "" ==>
      |LandingStart(s, prompt, selectedMode, file, g1, uuid, now).history| == |s.history| + 1
    ensures (prompt != "" || file.Some?) && RouteAttachment(prompt, file).Some? ==>
      var a := RouteAttachment(prompt, file).value;
      var html := g1(Call(a.prompt, a.imageBase64, a.mimeType, selectedMode));
      var r := LandingStart(s, prompt, selectedMode, file, g1, uuid, now);
      html.Success? && html.value != "" ==>
        |r.history| == |s.history| + 1 && r.history[0].html == html.value && r.active == Some(r.history[0])
  {
    if (prompt != "" || file.Some?) && RouteAttachment(prompt, file).Some? {
      GenerateAddsIffPage(s.(mode := selectedMode, started := true), prompt, file, selectedMode, g1, uuid, now);
    }
  }
}

=== FILE: creation.dfy ===
/** The record every part of the application passes around. */
module Creations {
  import opened Wrappers

  /** The generation persona chosen by the user. */
  datatype Mode = AppMode | DavinciMode | FusionMode

  /** One generated or imported artifact. `timestamp` is a point in time in
      milliseconds since the epoch; `originalImage`, when present, is the
      `data:` URL of the image the artifact was generated from. */
  datatype Creation = Creation(
    id: string,
    name: string,
    html: string,
    originalImage: Option<string>,
    timestamp: int)

  /** Some creation in `h` carries the identifier `id` (`h.some(c => c.id === id)`). */
  predicate HasId(h: seq<Creation>, id: string)
  {
    exists i | 0 <= i < |h| :: h[i].id == id
  }

  /** Newest first: timestamps never increase along the sequence. */
  predicate NewestFirst(h: seq<Creation>)
  {
    forall i, j | 0 <= i < j < |h| :: h[i].timestamp >= h[j].timestamp
  }

  /** No two creations of `h` share an identifier. */
  predicate DistinctIds(h: seq<Creation>)
  {
    forall i, j | 0 <= i < j < |h| :: h[i].id != h[j].id
  }
}

=== FILE: gemini.dfy ===
/** The Gemini service: resolving the API key, classifying errors, building
    the `generateContent` request and cleaning the model's output. The HTTP
    exchange itself is an input: a function from the request to the reply. */
module Gemini {
  import opened Wrappers
  import opened Text
  import opened Creations

  // ---------------------------------------------------------------------
  // Key resolution
  // ---------------------------------------------------------------------

  /** The browser's `localStorage`, a map from slot name to stored string. */
  type LocalStorage = map<string, string>

  /** The slot the key lives in now, and the one older versions used. */
  const PrimaryKeySlot: string := "capy_gemini_key"
  const LegacyKeySlot: string := "gemini_user_api_key"

  /** `localStorage.getItem(slot) || ""`. */
  function GetItem(ls: LocalStorage, slot: string): (v: string)
    ensures slot !in ls ==> v == ""
  {
    if slot in ls then ls[slot] else ""
  }

  /** The key chosen and the storage as the resolver leaves it. */
  datatype KeyResolution = KeyResolution(key: string, storage: LocalStorage)

  /** `resolveGeminiApiKey`. An explicit key (trimmed) wins; outside a browser
      window nothing else is consulted; then the primary slot; then the legacy
      slot, whose value is copied forward into the primary slot. The result is
      always trimmed, only the primary slot is ever written, and it is written
      only with the legacy value. */
  function ResolveGeminiApiKey(explicit: Option<string>, hasWindow: bool, ls: LocalStorage): (r: KeyResolution)
    ensures forall slot | slot != PrimaryKeySlot :: (slot in r.storage <==> slot in ls)
    ensures forall slot | slot in ls && slot != PrimaryKeySlot :: r.storage[slot] == ls[slot]
    ensures r.storage != ls ==> r.key != "" && r.storage == ls[PrimaryKeySlot := r.key]
    ensures r.storage != ls ==> r.key == Trim(GetItem(ls, LegacyKeySlot))
  {
    var provided := Trim(OrEmpty(explicit));
    if provided != "" then
      KeyResolution(provided, ls)
    else if !hasWindow then
      KeyResolution("", ls)
    else
      var primary := Trim(GetItem(ls, PrimaryKeySlot));
      if primary != "" then
        KeyResolution(primary, ls)
      else
        var legacy := Trim(GetItem(ls, LegacyKeySlot));
        if legacy != "" then
          KeyResolution(legacy, ls[PrimaryKeySlot := legacy])
        else
          KeyResolution("", ls)
  }

  /** The precedence, case by case: explicit key, then (in a window) the
      primary slot, then the legacy slot with a copy forward, else `""`. */
  lemma KeyPrecedence(explicit: Option<string>, hasWindow: bool, ls: LocalStorage)
    ensures var r := ResolveGeminiApiKey(explicit, hasWindow, ls);
      var e := Trim(OrEmpty(explicit));
      var p := Trim(GetItem(ls, PrimaryKeySlot));
      var l := Trim(GetItem(ls, LegacyKeySlot));
      && (e != "" ==> r == KeyResolution(e, ls))
      && (e == "" && !hasWindow ==> r == KeyResolution("", ls))
      && (e == "" && hasWindow && p != "" ==> r == KeyResolution(p, ls))
      && (e == "" && hasWindow && p == "" && l != "" ==> r == KeyResolution(l, ls[PrimaryKeySlot := l]))
      && (e == "" && hasWindow && p == "" && l == "" ==> r == KeyResolution("", ls))
  {
  }

  /** The key handed back never carries surrounding white space. */
  lemma ResolvedKeyIsTrimmed(explicit: Option<string>, hasWindow: bool, ls: LocalStorage)
    ensures var r := ResolveGeminiApiKey(explicit, hasWindow, ls);
      Trim(r.key) == r.key
  {
    TrimIdempotent(OrEmpty(explicit));
    TrimIdempotent(GetItem(ls, PrimaryKeySlot));
    TrimIdempotent(GetItem(ls, LegacyKeySlot));
  }

  /** The migration happens once: resolving again after a copy forward finds
      the same key in the primary slot and writes nothing. */
  lemma MigrationIdempotent(explicit: Option<string>, ls: LocalStorage)
    ensures var r1 := ResolveGeminiApiKey(explicit, true, ls);
      var r2 := ResolveGeminiApiKey(explicit, true, r1.storage);
      r2.key == r1.key && r2.storage == r1.storage
  {
    var r1 := ResolveGeminiApiKey(explicit, true, ls);
    if r1.storage != ls {
      assert GetItem(r1.storage, PrimaryKeySlot) == r1.key;
      TrimIdempotent(GetItem(ls, LegacyKeySlot));
    }
  }

  // ---------------------------------------------------------------------
  // Error classification
  // ---------------------------------------------------------------------

  /** The four messages `normalizeGeminiError` can return, by class. */
  datatype ErrorKind = QuotaKind | AuthKind | NetworkKind | GenericKind

  const QuotaMessage: string := "Cota/limite do Gemini atingido (429). Verifique quota, billing e uso da sua chave."
  const AuthMessage: string := "Chave Gemini inválida ou sem permissão (401/403). Confira a chave salva no CapyUniverse."
  const NetworkMessage: string := "Falha de rede ao chamar o Gemini. Verifique conexão e CORS."
  const GenericMessage: string := "Erro ao chamar o Gemini. Veja o console para detalhes."

  function KindMessage(k: ErrorKind): string
  {
    match k
    case QuotaKind => QuotaMessage
    case AuthKind => AuthMessage
    case NetworkKind => NetworkMessage
    case GenericKind => GenericMessage
  }

  /** The substrings that select each class, in the order they are tried. */
  const QuotaNeedles: seq<string> := ["429", "quota", "rate"]
  const AuthNeedles: seq<string> := ["401", "403", "api key"]
  const NetworkNeedles: seq<string> := ["failed to fetch", "network"]

  /** `s.includes(ws[0]) || s.includes(ws[1]) || ...`. */
  function ContainsAny(s: string, ws: seq<string>): (b: bool)
    ensures b <==> exists j | 0 <= j < |ws| :: Contains(s, ws[j])
  {
    if ws == [] then false
    else Contains(s, ws[0]) || ContainsAny(s, ws[1..])
  }

  /** The quota clues, one by one. */
  lemma QuotaNeedlesSpelledOut(s: string)
    ensures ContainsAny(s, QuotaNeedles) <==>
      Contains(s, "429") || Contains(s, "quota") || Contains(s, "rate")
  {
    assert QuotaNeedles[0] == "429" && QuotaNeedles[1] == "quota" && QuotaNeedles[2] == "rate";
  }

  /** The class a message falls in, tried in order on its lower-case form:
      a class the message mentions (or the generic one), with no earlier
      class mentioned. */
  function Classify(msg: string): (k: ErrorKind)
    ensures k == GenericKind || Mentions(msg, k)
    ensures forall e | Rank(e) < Rank(k) :: !Mentions(msg, e)
  {
    var lower := ToLower(msg);
    if ContainsAny(lower, QuotaNeedles) then QuotaKind
    else if ContainsAny(lower, AuthNeedles) then AuthKind
    else if ContainsAny(lower, NetworkNeedles) then NetworkKind
    else GenericKind
  }

  /** What was thrown: a string, an `Error`, a value `JSON.stringify` renders
      (given here as its text), a value it renders as `undefined` (`undefined`
      itself, a function, a symbol), or a value it throws on (a cyclic
      object, a `BigInt`). */
  datatype Thrown =
    | ThrownString(s: string)
    | ThrownError(message: string)
    | ThrownValue(json: string)
    | ThrownUnrendered
    | ThrownUnserialisable

  /** The text that is classified, or `None` when there is none: either
      `JSON.stringify` throws, or it gives `undefined` and the call to
      `toLowerCase` on it throws a `TypeError`. */
  function MessageOf(err: Thrown): (m: Option<string>)
    ensures m.None? <==> err.ThrownUnrendered? || err.ThrownUnserialisable?
    ensures err.ThrownString? ==> m == Some(err.s)
    ensures err.ThrownError? ==> m == Some(err.message)
    ensures err.ThrownValue? ==> m == Some(err.json)
  {
    match err
    case ThrownString(s) => Some(s)
    case ThrownError(m) => Some(m)
    case ThrownValue(j) => Some(j)
    case ThrownUnrendered => None
    case ThrownUnserialisable => None
  }

  /** `normalizeGeminiError`: one of four fixed messages, chosen by the
      earliest class whose substrings occur in the lower-cased message;
      `None` when the function itself throws, for want of a message. */
  function NormalizeGeminiError(err: Thrown): (r: Option<string>)
    ensures r.None? <==> MessageOf(err).None?
    ensures r.Some? ==> var lower := ToLower(MessageOf(err).value);
      && (ContainsAny(lower, QuotaNeedles) ==> r.value == QuotaMessage)
      && (!ContainsAny(lower, QuotaNeedles) && ContainsAny(lower, AuthNeedles) ==> r.value == AuthMessage)
      && ((!ContainsAny(lower, QuotaNeedles) && !ContainsAny(lower, AuthNeedles) &&
           ContainsAny(lower, NetworkNeedles)) ==> r.value == NetworkMessage)
      && ((!ContainsAny(lower, QuotaNeedles) && !ContainsAny(lower, AuthNeedles) &&
           !ContainsAny(lower, NetworkNeedles)) ==> r.value == GenericMessage)
  {
    match MessageOf(err)
    case None => None
    case Some(m) => Some(KindMessage(Classify(m)))
  }

  /** Rank of a class in the order the source tries them. */
  function Rank(k: ErrorKind): nat
  {
    match k
    case QuotaKind => 0
    case AuthKind => 1
    case NetworkKind => 2
    case GenericKind => 3
  }

  function NeedlesOf(k: ErrorKind): seq<string>
  {
    match k
    case QuotaKind => QuotaNeedles
    case AuthKind => AuthNeedles
    case NetworkKind => NetworkNeedles
    case GenericKind => []
  }

  /** A message mentions one of the substrings of class `k`, ignoring case. */
  predicate Mentions(msg: string, k: ErrorKind)
  {
    ContainsAny(ToLower(msg), NeedlesOf(k))
  }

  /** Ordered classification: the class is the earliest one the message
      mentions, or the generic class when it mentions none. */
  lemma ClassifyIsEarliestMention(msg: string, k: ErrorKind)
    ensures Classify(msg) == k <==>
      (k == GenericKind || Mentions(msg, k)) &&
      (forall k' :: Rank(k') < Rank(k) ==> !Mentions(msg, k'))
  {
    var c := Classify(msg);
    if c == k {
      forall k' | Rank(k') < Rank(k) ensures !Mentions(msg, k') {
        match k' {
          case QuotaKind =>
          case AuthKind =>
          case NetworkKind =>
          case GenericKind =>
        }
      }
    } else {
      if (k == GenericKind || Mentions(msg, k)) {
        assert Rank(c) < Rank(k) || (Rank(c) > Rank(k) && Mentions(msg, k));
        if Rank(c) < Rank(k) {
          assert Mentions(msg, c) && Rank(c) < Rank(k);
        }
      }
    }
  }

  /** Case-insensitive: a quota substring spelled in any mix of cases anywhere
      in the message makes it a quota error, whatever else it mentions. */
  lemma QuotaInAnyCase(msg: string, j: nat, i: nat)
    requires j < |QuotaNeedles|
    requires i + |QuotaNeedles[j]| <= |msg|
    requires ToLower(msg[i..i + |QuotaNeedles[j]|]) == QuotaNeedles[j]
    ensures Classify(msg) == QuotaKind
  {
    ContainsIgnoringCase(msg, QuotaNeedles[j], i);
  }

  /** Likewise for the key-rejection substrings, when no quota one occurs. */
  lemma AuthInAnyCase(msg: string, j: nat, i: nat)
    requires j < |AuthNeedles|
    requires i + |AuthNeedles[j]| <= |msg|
    requires ToLower(msg[i..i + |AuthNeedles[j]|]) == AuthNeedles[j]
    requires !Mentions(msg, QuotaKind)
    ensures Classify(msg) == AuthKind
  {
    ContainsIgnoringCase(msg, AuthNeedles[j], i);
  }

  /** An HTTP 404 saying the model "is not supported for generateContent",
      lower-cased. It mentions no quota, key or network problem. */
  const NotSupportedBody: string :=
    "erro na api 404: " + "model is not " + "supported for " + "generatecontent"

  /** The substring "rate" is found inside "generatecontent", so the source
      reports that 404 as an exhausted quota. */
  lemma RateInsideWordIsQuota(msg: string)
    requires ToLower(msg) == NotSupportedBody
    ensures Classify(msg) == QuotaKind
    ensures NormalizeGeminiError(ThrownError(msg)) == Some(QuotaMessage)
  {
    assert "generatecontent"[4..8] == "rate";
    OccursAfter("erro na api 404: " + "model is not " + "supported for ", "generatecontent", "rate", 4);
    QuotaNeedlesSpelledOut(NotSupportedBody);
  }

  predicate IsAsciiLetter(c: char)
  {
    ('a' <= c <= 'z') || ('A' <= c <= 'Z')
  }

  /** `w` occurs at `i` as a whole word: no letter right before or after. */
  predicate WordAt(s: string, w: string, i: int)
  {
    && OccursAt(s, w, i)
    && (i == 0 || !IsAsciiLetter(s[i - 1]))
    && (i + |w| == |s| || !IsAsciiLetter(s[i + |w|]))
  }

  predicate ContainsWord(s: string, w: string)
  {
    exists i | 0 <= i <= |s| :: WordAt(s, w, i)
  }

  /** The classification as evidently intended: "rate" counts only as a word
      of its own ("rate limit", "RATE_LIMIT_EXCEEDED"), not inside another. */
  function ClassifyIntended(msg: string): (k: ErrorKind)
    ensures k == QuotaKind <==>
      var lower := ToLower(msg);
      Contains(lower, "429") || Contains(lower, "quota") || ContainsWord(lower, "rate")
    ensures k == AuthKind ==> Mentions(msg, AuthKind)
    ensures k == NetworkKind ==> Mentions(msg, NetworkKind) && !Mentions(msg, AuthKind)
  {
    var lower := ToLower(msg);
    if Contains(lower, "429") || Contains(lower, "quota") || ContainsWord(lower, "rate") then
      assert ContainsWord(lower, "rate") ==> Contains(lower, "rate");
      QuotaKind
    else if ContainsAny(lower, AuthNeedles) then AuthKind
    else if ContainsAny(lower, NetworkNeedles) then NetworkKind
    else GenericKind
  }

  /** The two classifiers disagree only on a message whose sole quota clue
      is "rate" inside a longer word: the source says quota, the intended
      reading goes on to the later classes. */
  lemma ClassifiersDifferOnlyOnEmbeddedRate(msg: string)
    ensures var lower := ToLower(msg);
      ClassifyIntended(msg) != Classify(msg) <==>
        && Classify(msg) == QuotaKind
        && !Contains(lower, "429") && !Contains(lower, "quota")
        && !ContainsWord(lower, "rate")
  {
    var lower := ToLower(msg);
    QuotaNeedlesSpelledOut(lower);
    if ContainsWord(lower, "rate") {
      var i :| 0 <= i <= |lower| && WordAt(lower, "rate", i);
      assert OccursAt(lower, "rate", i);
    }
  }

  /** The key-rejection clues, one by one. */
  lemma AuthNeedlesSpelledOut(s: string)
    ensures ContainsAny(s, AuthNeedles) <==>
      Contains(s, "401") || Contains(s, "403") || Contains(s, "api key")
  {
    assert AuthNeedles[0] == "401" && AuthNeedles[1] == "403" && AuthNeedles[2] == "api key";
  }

  /** The network clues, one by one. */
  lemma NetworkNeedlesSpelledOut(s: string)
    ensures ContainsAny(s, NetworkNeedles) <==>
      Contains(s, "failed to fetch") || Contains(s, "network")
  {
    assert NetworkNeedles[0] == "failed to fetch" && NetworkNeedles[1] == "network";
  }

  /** A needle with a character that none of the four pieces of that 404
      has does not occur in it. */
  lemma NotSupportedLacksNeedle(w: string, k: int)
    requires 0 <= k < |w|
    requires w[k] !in "erro na api 404: " && w[k] !in "model is not "
    requires w[k] !in "supported for " && w[k] !in "generatecontent"
    ensures !Contains(NotSupportedBody, w)
  {
    NotContainsByChar(NotSupportedBody, w, k);
  }

  /** That 404 holds no other quota clue. */
  lemma NotSupportedHasNoQuotaClue()
    ensures !Contains(NotSupportedBody, "429") && !Contains(NotSupportedBody, "quota")
  {
    NotSupportedLacksNeedle("429", 2);
    NotSupportedLacksNeedle("quota", 0);
  }

  /** That 404 holds no key-rejection clue: it has no '1', no '3' and no 'k'. */
  lemma NotSupportedHasNoAuthClue()
    ensures !ContainsAny(NotSupportedBody, AuthNeedles)
  {
    NotSupportedLacksNeedle("401", 2);
    NotSupportedLacksNeedle("403", 2);
    NotSupportedLacksNeedle("api key", 4);
    AuthNeedlesSpelledOut(NotSupportedBody);
  }

  /** That 404 holds no network clue: it has no 'h' and no 'w'. */
  lemma NotSupportedHasNoNetworkClue()
    ensures !ContainsAny(NotSupportedBody, NetworkNeedles)
  {
    NotSupportedLacksNeedle("failed to fetch", 14);
    NotSupportedLacksNeedle("network", 3);
    NetworkNeedlesSpelledOut(NotSupportedBody);
  }

  /** In that 404, "ra" occurs only at the "ra" of "generatecontent". */
  lemma NotSupportedRaAt(i: int)
    requires 0 <= i < |NotSupportedBody| - 1
    requires NotSupportedBody[i] == 'r' && NotSupportedBody[i + 1] == 'a'
    ensures i == 48 && NotSupportedBody[47] == 'e'
  {
  }

  /** In that 404, "rate" occurs only inside "generatecontent". */
  lemma NotSupportedHasNoWordRate()
    ensures !ContainsWord(NotSupportedBody, "rate")
  {
    var l := NotSupportedBody;
    forall i | 0 <= i <= |l| ensures !WordAt(l, "rate", i) {
      if OccursAt(l, "rate", i) {
        assert l[i..i + 4][0] == 'r' && l[i..i + 4][1] == 'a';
        NotSupportedRaAt(i);
      }
    }
  }

  /** The intended classifier leaves that 404 generic. */
  lemma RateInsideWordIsGenericWhenIntended(msg: string)
    requires ToLower(msg) == NotSupportedBody
    ensures ClassifyIntended(msg) == GenericKind
  {
    NotSupportedHasNoQuotaClue();
    NotSupportedHasNoAuthClue();
    NotSupportedHasNoNetworkClue();
    NotSupportedHasNoWordRate();
  }

  /** A rate-limit message in capitals is still a quota error when intended. */
  lemma RateLimitIsQuotaWhenIntended()
    ensures ClassifyIntended("RATE_LIMIT_EXCEEDED") == QuotaKind
  {
    var l := ToLower("RATE_LIMIT_EXCEEDED");
    assert l[..4] == "rate" && l[4] == '_';
    assert WordAt(l, "rate", 0);
  }

  // ---------------------------------------------------------------------
  // Request construction
  // ---------------------------------------------------------------------

  /** The three persona instructions; their text is opaque here. */
  datatype Instruction = AppInstruction | DavinciInstruction | FusionInstruction

  /** One element of `contents[0].parts`. */
  datatype Part = TextPart(text: string) | InlineDataPart(data: string, mimeType: string)

  /** What is posted to `generateContent`, less the fixed temperature. */
  datatype Request = Request(apiKey: string, instruction: Instruction, parts: seq<Part>)

  /** Each mode has its own persona; the app persona is the fallback. */
  function InstructionFor(mode: Mode): (i: Instruction)
    ensures i == DavinciInstruction <==> mode == DavinciMode
    ensures i == FusionInstruction <==> mode == FusionMode
    ensures i == AppInstruction <==> mode == AppMode
  {
    match mode
    case DavinciMode => DavinciInstruction
    case FusionMode => FusionInstruction
    case AppMode => AppInstruction
  }

  const DavinciImagePrompt: string := "Analise esta imagem como Leonardo Da Vinci. Crie um 'Codex' HTML estilo pergaminho com as seções pedidas."
  const FusionImagePrompt: string := "Crie uma 'Máquina Digital' baseada nesta imagem. Misture estética renascentista com UI moderna. Faça funcionar."
  const AppImagePrompt: string := "Você é o Leonardo da Vinci dos anos 90. Analise a imagem e crie um Web App completo em HTML/JS para resolver um problema útil."
  const DavinciDefaultPrompt: string := "Crie um Codex artístico e mecânico em HTML."
  const FusionDefaultPrompt: string := "Crie um artefato cyber-renascentista interativo."
  const AppDefaultPrompt: string := "Invente um software revolucionário agora."

  /** The fixed prompt used when an image is attached; it ignores the user's. */
  function ImagePrompt(mode: Mode): (r: string)
    ensures r != ""
  {
    match mode
    case DavinciMode => DavinciImagePrompt
    case FusionMode => FusionImagePrompt
    case AppMode => AppImagePrompt
  }

  /** The prompt used when there is neither an image nor a user prompt. */
  function DefaultPrompt(mode: Mode): (r: string)
    ensures r != ""
  {
    match mode
    case DavinciMode => DavinciDefaultPrompt
    case FusionMode => FusionDefaultPrompt
    case AppMode => AppDefaultPrompt
  }

  /** `fileBase64 ? imagePrompt : prompt || defaultPrompt`, per mode. */
  function FinalPrompt(prompt: string, fileBase64: Option<string>, mode: Mode): (r: string)
    ensures r != ""
    ensures Truthy(fileBase64) ==> r == ImagePrompt(mode)
    ensures !Truthy(fileBase64) ==> r == prompt || (prompt == "" && r == DefaultPrompt(mode))
  {
    if Truthy(fileBase64) then ImagePrompt(mode)
    else if prompt != "" then prompt
    else DefaultPrompt(mode)
  }

  /** With an image attached the user's prompt has no influence at all. */
  lemma ImageOverridesPrompt(p1: string, p2: string, fileBase64: Option<string>, mode: Mode)
    requires Truthy(fileBase64)
    ensures FinalPrompt(p1, fileBase64, mode) == FinalPrompt(p2, fileBase64, mode)
  {
  }

  /** The parts list: the text part first, then inline data if and only if
      both the base64 payload and its MIME type are non-empty. */
  function BuildParts(finalPrompt: string, fileBase64: Option<string>, mimeType: Option<string>): (parts: seq<Part>)
    ensures 1 <= |parts| <= 2
    ensures parts[0] == TextPart(finalPrompt)
    ensures |parts| == 2 <==> Truthy(fileBase64) && Truthy(mimeType)
    ensures |parts| == 2 ==> parts[1] == InlineDataPart(fileBase64.value, mimeType.value)
  {
    if Truthy(fileBase64) && Truthy(mimeType) then
      [TextPart(finalPrompt), InlineDataPart(fileBase64.value, mimeType.value)]
    else
      [TextPart(finalPrompt)]
  }

  // ---------------------------------------------------------------------
  // Output post-processing
  // ---------------------------------------------------------------------

  const Placeholder: string := "<!-- Falha ao gerar conteúdo -->"
  const Fence: string := "```"

  /** `candidates[0].content.parts[0].text || placeholder`. */
  function CandidateText(text: Option<string>): (r: string)
    ensures r != ""
    ensures Truthy(text) ==> r == text.value
    ensures !Truthy(text) ==> r == Placeholder
  {
    if Truthy(text) then text.value else Placeholder
  }

  /** A fence followed by "html" in any mix of cases. */
  predicate StartsWithHtmlFence(s: string)
  {
    && StartsWith(s, Fence) && |s| >= 7
    && (s[3] == 'h' || s[3] == 'H') && (s[4] == 't' || s[4] == 'T')
    && (s[5] == 'm' || s[5] == 'M') && (s[6] == 'l' || s[6] == 'L')
  }

  /** The first replacement, pattern `^```html\s*` without regard to case: drops an opening html fence and the
      white space after it; what is left is a suffix of `s`. */
  function DropHtmlOpening(s: string): (r: string)
    ensures EndsWith(s, r)
    ensures !StartsWithHtmlFence(s) ==> r == s
    ensures !StartsWith(s, Fence) ==> r == s
    ensures StartsWithHtmlFence(s) ==>
      && |r| <= |s| - 7 && AllSpace(s[7..|s| - |r|])
      && (r == [] || !IsSpace(r[0]))
  {
    if StartsWithHtmlFence(s) then
      SkipThenTrim(s, 7);
      TrimStart(s[7..])
    else s
  }

  /** The second replacement, pattern `^```\s*`: drops an opening fence and the white
      space after it; what is left is a suffix of `s`. */
  function DropOpening(s: string): (r: string)
    ensures EndsWith(s, r)
    ensures !StartsWith(s, Fence) ==> r == s
    ensures StartsWith(s, Fence) ==>
      && |r| <= |s| - 3 && AllSpace(s[3..|s| - |r|])
      && (r == [] || !IsSpace(r[0]))
  {
    if StartsWith(s, Fence) then
      SkipThenTrim(s, 3);
      TrimStart(s[3..])
    else s
  }

  /** Skipping `k` characters and then the white space that follows leaves
      a suffix that does not start with white space. */
  lemma SkipThenTrim(s: string, k: nat)
    requires k <= |s|
    ensures var r := TrimStart(s[k..]);
      && EndsWith(s, r)
      && |r| <= |s| - k && AllSpace(s[k..|s| - |r|]) && (r == [] || !IsSpace(r[0]))
  {
    var t := s[k..];
    var r := TrimStart(t);
    assert s[k..|s| - |r|] == t[..|t| - |r|];
    assert EndsWith(s, t);
    SuffixOfSuffix(s, t, r);
  }

  /** The third replacement, pattern ```` ```$ ````: drops a fence at the very end; what is left
      is a prefix of `s`. */
  function DropClosing(s: string): (r: string)
    ensures StartsWith(s, r)
    ensures !EndsWith(s, Fence) ==> r == s
    ensures EndsWith(s, Fence) ==> |r| == |s| - 3
  {
    if EndsWith(s, Fence) then s[..|s| - 3] else s
  }

  /** What the first two replacements can remove: nothing; a fence, with or
      without "html" in any case, and the white space after it; or an html
      fence, white space, a second bare fence and the white space after it. */
  predicate Opening(p: string)
  {
    || p == []
    || (StartsWith(p, Fence) && AllSpace(p[3..]))
    || (StartsWithHtmlFence(p) && AllSpace(p[7..]))
    || (StartsWithHtmlFence(p) &&
        exists k | 7 <= k <= |p| - 3 :: AllSpace(p[7..k]) && p[k..k + 3] == Fence && AllSpace(p[k + 3..]))
  }

  /** `r` is `s` less an opening `s[..lo]` and a closing: the opening is
      there exactly when `s` starts with a fence, and then it takes all the
      white space after it, and it takes at least the seven characters of an
      html fence when there is one, and a second fence that follows it and its
      white space as well; the closing is a fence exactly when what is left
      after the opening ends with one, and is empty otherwise. */
  predicate StrippedAt(s: string, lo: int, r: string)
  {
    && 0 <= lo <= |s| - |r| && s[lo..lo + |r|] == r
    && Opening(s[..lo]) && (lo > 0 <==> StartsWith(s, Fence))
    && (StartsWithHtmlFence(s) ==> lo >= 7)
    && (StartsWithHtmlFence(s) && AllSpace(s[7..lo]) ==> !StartsWith(s[lo..], Fence))
    && (lo > 0 && r != [] ==> !IsSpace(r[0]))
    && (s[lo + |r|..] == [] || s[lo + |r|..] == Fence)
    && (s[lo + |r|..] == Fence <==> EndsWith(s[lo..], Fence))
  }

  /** The three anchored replacements, in order. Only a prefix and a suffix
      of the text are removed, and text that starts with no fence keeps its
      beginning. */
  function StripFences(s: string): (r: string)
    ensures exists lo :: OccursAt(s, r, lo)
    ensures exists lo :: StrippedAt(s, lo, r)
    ensures !StartsWith(s, Fence) && !EndsWith(s, Fence) ==> r == s
    ensures !StartsWith(s, Fence) ==> StartsWith(s, r)
  {
    var a := DropHtmlOpening(s);
    var b := DropOpening(a);
    var r := DropClosing(b);
    StrippedSlice(s, a, b, r);
    OpeningShape(s, a, b);
    ClosingShape(s, b, r);
    assert s[|s| - |b|..] == b;
    assert StrippedAt(s, |s| - |b|, r);
    r
  }

  /** The prefix the first two replacements remove is an opening, present
      exactly when the text starts with a fence, and what follows it does
      not start with white space. */
  lemma OpeningShape(s: string, a: string, b: string)
    requires EndsWith(s, a) && (!StartsWithHtmlFence(s) ==> a == s)
    requires StartsWithHtmlFence(s) ==>
      |a| <= |s| - 7 && AllSpace(s[7..|s| - |a|]) && (a == [] || !IsSpace(a[0]))
    requires EndsWith(a, b) && (!StartsWith(a, Fence) ==> b == a)
    requires StartsWith(a, Fence) ==>
      |b| <= |a| - 3 && AllSpace(a[3..|a| - |b|]) && (b == [] || !IsSpace(b[0]))
    ensures Opening(s[..|s| - |b|])
    ensures |b| < |s| <==> StartsWith(s, Fence)
    ensures StartsWithHtmlFence(s) ==> |b| <= |s| - 7
    ensures StartsWithHtmlFence(s) && AllSpace(s[7..|s| - |b|]) ==> !StartsWith(b, Fence)
    ensures |b| < |s| && b != [] ==> !IsSpace(b[0])
  {
    if StartsWithHtmlFence(s) {
      if StartsWith(a, Fence) {
        var k := |s| - |a|;
        assert s[k] == a[0] == '`';
        assert s[7..|s| - |b|][k - 7] == s[k];
        TwoFenceOpening(s, a, b);
      } else {
        OneFenceOpening(s, b, 7);
      }
    } else if StartsWith(s, Fence) {
      OneFenceOpening(s, b, 3);
    }
  }

  /** A fence of `n` characters and the white space after it form an
      opening. */
  lemma OneFenceOpening(s: string, b: string, n: int)
    requires n == 3 || (n == 7 && StartsWithHtmlFence(s))
    requires StartsWith(s, Fence) && |b| <= |s| - n && AllSpace(s[n..|s| - |b|])
    ensures Opening(s[..|s| - |b|])
  {
    var p := s[..|s| - |b|];
    assert p[..3] == s[..3];
    if n == 7 {
      assert p[3..7] == s[3..7];
    }
    assert p[n..] == s[n..|s| - |b|];
  }

  /** An html fence, white space, a second fence and white space form an
      opening. */
  lemma TwoFenceOpening(s: string, a: string, b: string)
    requires StartsWithHtmlFence(s) && EndsWith(s, a)
    requires |a| <= |s| - 7 && AllSpace(s[7..|s| - |a|])
    requires StartsWith(a, Fence) && EndsWith(a, b)
    requires |b| <= |a| - 3 && AllSpace(a[3..|a| - |b|])
    ensures Opening(s[..|s| - |b|])
  {
    var p := s[..|s| - |b|];
    var k := |s| - |a|;
    assert p[..3] == s[..3] && p[3..7] == s[3..7];
    assert a == s[k..];
    assert p[7..k] == s[7..k];
    assert p[k..k + 3] == a[..3];
    assert p[k + 3..] == a[3..|a| - |b|];
    assert AllSpace(p[7..k]) && p[k..k + 3] == Fence && AllSpace(p[k + 3..]);
  }

  /** The third replacement removes a fence that ends what is left, or
      nothing. */
  lemma ClosingShape(s: string, b: string, r: string)
    requires EndsWith(s, b)
    requires StartsWith(b, r) && (!EndsWith(b, Fence) ==> r == b)
    requires EndsWith(b, Fence) ==> |r| == |b| - 3
    ensures s[|s| - |b|..] == b
    ensures s[|s| - |b| + |r|..] == b[|r|..]
    ensures b[|r|..] == [] || b[|r|..] == Fence
    ensures b[|r|..] == Fence <==> EndsWith(b, Fence)
    ensures r != [] ==> r[0] == b[0]
  {
    assert s[|s| - |b| + |r|..] == s[|s| - |b|..][|r|..];
  }

  /** What is left after dropping two prefixes and a suffix is a slice of
      the original; a text with no fence at its start keeps its beginning. */
  lemma StrippedSlice(s: string, a: string, b: string, r: string)
    requires EndsWith(s, a) && (!StartsWith(s, Fence) ==> a == s)
    requires EndsWith(a, b) && (!StartsWith(a, Fence) ==> b == a)
    requires StartsWith(b, r) && (!EndsWith(b, Fence) ==> r == b)
    ensures OccursAt(s, r, |s| - |b|)
    ensures !StartsWith(s, Fence) && !EndsWith(s, Fence) ==> r == s
    ensures !StartsWith(s, Fence) ==> StartsWith(s, r)
  {
    SuffixOfSuffix(s, a, b);
    PrefixOfSuffix(s, b, r);
  }

  lemma SuffixOfSuffix(s: string, a: string, b: string)
    requires EndsWith(s, a) && EndsWith(a, b)
    ensures EndsWith(s, b)
  {
    assert s[|s| - |b|..] == s[|s| - |a|..][|a| - |b|..];
  }

  lemma PrefixOfSuffix(s: string, b: string, r: string)
    requires EndsWith(s, b) && StartsWith(b, r)
    ensures OccursAt(s, r, |s| - |b|)
  {
    assert s[|s| - |b|..|s| - |b| + |r|] == s[|s| - |b|..][..|r|];
  }

  /** What `bringToLife` returns for a candidate: placeholder, then fences. */
  function CleanOutput(text: Option<string>): (r: string)
    ensures Truthy(text) ==> exists lo :: StrippedAt(text.value, lo, r)
    ensures !Truthy(text) ==> exists lo :: StrippedAt(Placeholder, lo, r)
  {
    StripFences(CandidateText(text))
  }

  const HtmlOpening: string := "```html"

  /** An opening "```html" is recognised, and the first replacement starts
      from what follows it. */
  lemma HtmlOpeningRecognised(rest: string)
    ensures StartsWithHtmlFence(HtmlOpening + rest)
    ensures (HtmlOpening + rest)[7..] == rest
  {
    var s := HtmlOpening + rest;
    assert s[..3] == HtmlOpening[..3] == Fence;
  }

  /** `^\s*` consumes exactly the white space in front of a non-space. */
  lemma {:induction false} TrimStartSkipsSpace(ws: string, rest: string)
    requires AllSpace(ws)
    requires rest != [] && !IsSpace(rest[0])
    ensures TrimStart(ws + rest) == rest
  {
    if ws != [] {
      assert (ws + rest)[1..] == ws[1..] + rest;
      TrimStartSkipsSpace(ws[1..], rest);
    }
  }

  /** After "```html" and white space, the first replacement leaves the text
      that follows. */
  lemma HtmlOpeningDropped(ws: string, a: string)
    requires AllSpace(ws)
    requires a != [] && !IsSpace(a[0])
    ensures DropHtmlOpening(HtmlOpening + (ws + a)) == a
  {
    HtmlOpeningRecognised(ws + a);
    TrimStartSkipsSpace(ws, a);
  }

  /** Text that does not start with a backtick has no opening fence. */
  lemma NoOpeningFence(a: string)
    requires a != [] && a[0] != '`'
    ensures DropOpening(a) == a
  {
    assert !StartsWith(a, Fence) by {
      if |Fence| <= |a| { assert a[..3][0] == a[0]; }
    }
  }

  /** A document wrapped in an html fence, with any white space after the
      opening, comes back exactly as written. */
  lemma FencesRoundTrip(inner: string, ws: string)
    requires AllSpace(ws)
    requires inner != [] && !IsSpace(inner[0]) && inner[0] != '`'
    ensures StripFences(HtmlOpening + ws + inner + Fence) == inner
  {
    var a := inner + Fence;
    assert HtmlOpening + ws + inner + Fence == HtmlOpening + (ws + a);
    HtmlOpeningDropped(ws, a);
    NoOpeningFence(a);
    assert a[|a| - 3..] == Fence;
    assert a[..|a| - 3] == inner;
  }

  /** Text that neither starts nor ends with a backtick has no fence. */
  lemma NoBacktickAtEnds(s: string)
    requires s != [] && s[0] != '`' && s[|s| - 1] != '`'
    ensures StripFences(s) == s
  {
    assert !StartsWith(s, Fence) by {
      if |Fence| <= |s| { assert s[..3][0] == s[0]; }
    }
    assert !EndsWith(s, Fence) by {
      if |Fence| <= |s| { assert s[|s| - 3..][2] == s[|s| - 1]; }
    }
  }

  /** The placeholder survives cleaning, so an empty answer yields it. */
  lemma EmptyAnswerGivesPlaceholder(text: Option<string>)
    requires !Truthy(text)
    ensures CleanOutput(text) == Placeholder
  {
    assert Placeholder[0] == '<' && Placeholder[|Placeholder| - 1] == '>';
    NoBacktickAtEnds(Placeholder);
  }

  /** `$` without the multiline flag anchors at the very end: a closing fence
      followed by a newline is left in place. */
  lemma TrailingNewlineKeepsFence(inner: string)
    requires inner != [] && !IsSpace(inner[0]) && inner[0] != '`'
    ensures StripFences(HtmlOpening + "\n" + inner + Fence + "\n") == inner + Fence + "\n"
  {
    var a := inner + Fence + "\n";
    assert HtmlOpening + "\n" + inner + Fence + "\n" == HtmlOpening + ("\n" + a);
    HtmlOpeningDropped("\n", a);
    NoOpeningFence(a);
    assert a[|a| - 1] == '\n';
  }

  /** A reply that is nothing but a fence cleans to the empty string. */
  lemma BareFenceCleansToEmpty()
    ensures CleanOutput(Some(Fence)) == ""
  {
    assert CandidateText(Some(Fence)) == Fence;
    assert !StartsWithHtmlFence(Fence);
    assert StartsWith(Fence, Fence) && Fence[3..] == [];
    assert DropOpening(Fence) == [];
  }

  // ---------------------------------------------------------------------
  // The whole call
  // ---------------------------------------------------------------------

  /** How the HTTP exchange ends: a parsed body whose first candidate's text
      may be missing, a response that is not `ok`, or a thrown error (the
      network failing, or a body that is not JSON). */
  datatype Reply =
    | Answered(text: Option<string>)
    | NotOk(status: string, body: string, statusText: string)
    | FetchFailed(message: string)

  /** The error thrown when no key can be found. */
  const MissingKeyMessage: string :=
    "API Key é necessária. Cadastre no CapyUniverse (capy_gemini_key) ou forneça explicitamente."

  /** The error thrown for a response that is not `ok`: the status, then the
      body text, or the status text when the body is empty. */
  function NotOkMessage(status: string, body: string, statusText: string): (m: string)
    ensures StartsWith(m, "Erro na API " + status + ": ")
    ensures |m| == 14 + |status| + (if body != "" then |body| else |statusText|)
    ensures body != "" ==> EndsWith(m, body)
    ensures body == "" ==> EndsWith(m, statusText)
  {
    "Erro na API " + status + ": " + (if body != "" then body else statusText)
  }

  /** The outcome (the HTML, or the message of the error thrown), the request
      that was posted, if any, and `localStorage` afterwards. */
  datatype Generation = Generation(result: Result<string, string>, sent: Option<Request>, storage: LocalStorage)

  /** The request `bringToLife` posts once it has a key. */
  function RequestFor(key: string, prompt: string, fileBase64: Option<string>, mimeType: Option<string>, mode: Mode): (q: Request)
    ensures q.apiKey == key && q.instruction == InstructionFor(mode)
    ensures 1 <= |q.parts| <= 2
    ensures q.parts[0] == TextPart(FinalPrompt(prompt, fileBase64, mode))
    ensures |q.parts| == 2 <==> Truthy(fileBase64) && Truthy(mimeType)
  {
    Request(key, InstructionFor(mode), BuildParts(FinalPrompt(prompt, fileBase64, mode), fileBase64, mimeType))
  }

  /** `bringToLife`; the exchange is the input `reply`. Without a key it
      throws before building anything; otherwise it posts one request and
      returns the cleaned text, or throws on a failed exchange. */
  function BringToLife(
    apiKey: Option<string>, prompt: string, fileBase64: Option<string>, mimeType: Option<string>,
    mode: Mode, hasWindow: bool, ls: LocalStorage, reply: Request -> Reply): (g: Generation)
    ensures var k := ResolveGeminiApiKey(apiKey, hasWindow, ls);
      && g.storage == k.storage
      && (g.sent == None <==> k.key == "")
      && (k.key == "" ==> g.result == Failure(MissingKeyMessage))
      && (k.key != "" ==> g.sent == Some(RequestFor(k.key, prompt, fileBase64, mimeType, mode)))
    ensures g.sent.Some? ==>
      match reply(g.sent.value)
      case Answered(text) => g.result == Success(CleanOutput(text))
      case NotOk(status, body, statusText) => g.result == Failure(NotOkMessage(status, body, statusText))
      case FetchFailed(message) => g.result == Failure(message)
  {
    var k := ResolveGeminiApiKey(apiKey, hasWindow, ls);
    if k.key == "" then
      Generation(Failure(MissingKeyMessage), None, k.storage)
    else
      var request := RequestFor(k.key, prompt, fileBase64, mimeType, mode);
      var result :=
        match reply(request)
        case Answered(text) => Success(CleanOutput(text))
        case NotOk(status, body, statusText) => Failure(NotOkMessage(status, body, statusText))
        case FetchFailed(message) => Failure(message);
      Generation(result, Some(request), k.storage)
  }

  /** Without a key nothing is posted, whatever the server would answer. */
  lemma NoKeyNoRequest(
    apiKey: Option<string>, prompt: string, fileBase64: Option<string>, mimeType: Option<string>,
    mode: Mode, ls: LocalStorage, reply: Request -> Reply)
    requires !Truthy(apiKey) || Trim(apiKey.value) == ""
    requires Trim(GetItem(ls, PrimaryKeySlot)) == "" && Trim(GetItem(ls, LegacyKeySlot)) == ""
    ensures var g := BringToLife(apiKey, prompt, fileBase64, mimeType, mode, true, ls, reply);
      g.sent == None && g.result == Failure(MissingKeyMessage) && g.storage == ls
  {
  }

  /** No page comes back unless the server answers. */
  lemma NoAnswerNoPage(
    apiKey: Option<string>, prompt: string, fileBase64: Option<string>, mimeType: Option<string>,
    mode: Mode, hasWindow: bool, ls: LocalStorage, reply: Request -> Reply)
    requires forall q :: !reply(q).Answered?
    ensures BringToLife(apiKey, prompt, fileBase64, mimeType, mode, hasWindow, ls, reply).result.Failure?
  {
  }

  /** An attached image is posted inline, under the mode's fixed image
      prompt, and the user's own prompt is not sent at all. */
  lemma ImageSentInline(
    apiKey: Option<string>, prompt: string, fileBase64: Option<string>, mimeType: Option<string>,
    mode: Mode, hasWindow: bool, ls: LocalStorage, reply: Request -> Reply)
    requires Truthy(fileBase64) && Truthy(mimeType)
    requires ResolveGeminiApiKey(apiKey, hasWindow, ls).key != ""
    ensures var g := BringToLife(apiKey, prompt, fileBase64, mimeType, mode, hasWindow, ls, reply);
      && g.sent.Some?
      && g.sent.value.parts == [TextPart(ImagePrompt(mode)), InlineDataPart(fileBase64.value, mimeType.value)]
  {
  }

  /** A response rejected with HTTP 429 surfaces as the quota message once
      normalized. */
  lemma Http429IsQuota(body: string, statusText: string)
    ensures NormalizeGeminiError(ThrownError(NotOkMessage("429", body, statusText))) == Some(QuotaMessage)
  {
    var m := NotOkMessage("429", body, statusText);
    assert m[12..15] == "429";
    assert ToLower("429") == "429";
    QuotaInAnyCase(m, 0, 12);
  }
}

=== FILE: storage.dfy ===
/** The IndexedDB persistence service: one object store, `creations`, whose
    key path is `id`. The store is a map from identifier to record; whether
    the database opens (and whether a write request succeeds) is an input. */
module Storage {
  import opened Wrappers
  import opened Creations

  /** The contents of the `creations` object store. */
  type Store = map<string, Creation>

  /** What the browser does with a transaction: it runs, the database cannot
      be opened, or the write request itself is rejected (a full disk, say). */
  datatype DbStatus = DbReady | OpenFails | RequestFails

  datatype StorageError = OpenError | RequestError

  /** The key-path discipline: every record is filed under its own `id`. */
  predicate WellKeyed(s: Store)
  {
    forall k | k in s :: s[k].id == k
  }

  /** `store.put(c)`: create-or-replace under `c.id`. */
  function Put(s: Store, c: Creation): (r: Store)
    ensures c.id in r && r[c.id] == c
    ensures r.Keys == s.Keys + {c.id}
    ensures forall k | k in s && k != c.id :: r[k] == s[k]
    ensures WellKeyed(s) ==> WellKeyed(r)
  {
    s[c.id := c]
  }

  /** `store.delete(id)`: removes the record under `id`, if any. */
  function Remove(s: Store, id: string): (r: Store)
    ensures r.Keys == s.Keys - {id}
    ensures forall k | k in r :: r[k] == s[k]
    ensures id !in s ==> r == s
    ensures WellKeyed(s) ==> WellKeyed(r)
  {
    s - {id}
  }

  /** `saveCreation`: a failed open is rethrown, a failed `put` rejects; on
      success the record is stored under its id and nothing else changes. */
  function SaveCreation(s: Store, c: Creation, db: DbStatus): (r: Result<Store, StorageError>)
    ensures r.Success? <==> db == DbReady
    ensures db == OpenFails ==> r == Failure(OpenError)
    ensures db == RequestFails ==> r == Failure(RequestError)
    ensures r.Success? ==> r.value.Keys == s.Keys + {c.id} && r.value[c.id] == c
    ensures r.Success? ==> forall k | k in s && k != c.id :: r.value[k] == s[k]
  {
    match db
    case DbReady => Success(Put(s, c))
    case OpenFails => Failure(OpenError)
    case RequestFails => Failure(RequestError)
  }

  /** `deleteCreation`: removes only `id`; an absent id is not an error. */
  function DeleteCreation(s: Store, id: string, db: DbStatus): (r: Result<Store, StorageError>)
    ensures r.Success? <==> db == DbReady
    ensures db == OpenFails ==> r == Failure(OpenError)
    ensures db == RequestFails ==> r == Failure(RequestError)
    ensures r.Success? ==> r.value.Keys == s.Keys - {id}
    ensures r.Success? ==> forall k | k in r.value :: r.value[k] == s[k]
    ensures r.Success? && id !in s ==> r.value == s
  {
    match db
    case DbReady => Success(Remove(s, id))
    case OpenFails => Failure(OpenError)
    case RequestFails => Failure(RequestError)
  }

  /** Saving twice under one id keeps one record, the second. */
  lemma SaveSameIdTwice(s: Store, a: Creation, b: Creation)
    requires a.id == b.id
    ensures Put(Put(s, a), b) == Put(s, b)
    ensures Put(Put(s, a), b)[a.id] == b
    ensures |Put(Put(s, a), b)| == |Put(s, a)|
  {
  }

  /** Saving is idempotent. */
  lemma SaveIdempotent(s: Store, c: Creation)
    ensures Put(Put(s, c), c) == Put(s, c)
  {
  }

  /** Deleting undoes saving: after a save and a delete of the same id, the
      store is what deleting alone would have left. */
  lemma DeleteUndoesSave(s: Store, c: Creation)
    ensures Remove(Put(s, c), c.id) == Remove(s, c.id)
    ensures c.id !in s ==> Remove(Put(s, c), c.id) == s
  {
  }

  /** `h` lists exactly the records of `s`, each once, unchanged, newest first. */
  predicate IsHistoryOf(h: seq<Creation>, s: Store)
  {
    && NewestFirst(h)
    && DistinctIds(h)
    && (forall i | 0 <= i < |h| :: h[i].id in s && s[h[i].id] == h[i])
    && (forall k | k in s :: HasId(h, k))
  }

  /** Where a stable sort by descending timestamp files `c` among the newest
      first `h`: after every record at least as new as `c`. */
  function InsertPos(c: Creation, h: seq<Creation>): (p: nat)
    ensures p <= |h|
    ensures forall i | 0 <= i < p :: h[i].timestamp >= c.timestamp
    ensures p < |h| ==> h[p].timestamp < c.timestamp
  {
    if h == [] || h[0].timestamp < c.timestamp then 0 else 1 + InsertPos(c, h[1..])
  }

  /** `h` with `c` placed at position `p`. */
  function InsertAt(h: seq<Creation>, c: Creation, p: nat): (r: seq<Creation>)
    requires p <= |h|
    ensures |r| == |h| + 1
    ensures forall i | 0 <= i < p :: r[i] == h[i]
    ensures r[p] == c
    ensures forall i | p < i < |r| :: r[i] == h[i - 1]
  {
    h[..p] + [c] + h[p..]
  }

  /** Inserting at `InsertPos` keeps the sequence newest first. */
  lemma InsertKeepsNewestFirst(h: seq<Creation>, c: Creation)
    requires NewestFirst(h)
    ensures NewestFirst(InsertAt(h, c, InsertPos(c, h)))
  {
    var p := InsertPos(c, h);
    var r := InsertAt(h, c, p);
    forall i, j | 0 <= i < j < |r| ensures r[i].timestamp >= r[j].timestamp {
      if i == p && j > p {
        assert h[p].timestamp >= h[j - 1].timestamp;
      }
    }
  }

  /** Inserting a record whose id is new keeps the identifiers distinct. */
  lemma InsertKeepsDistinct(h: seq<Creation>, c: Creation, p: nat)
    requires p <= |h| && DistinctIds(h) && !HasId(h, c.id)
    ensures DistinctIds(InsertAt(h, c, p))
  {
    var r := InsertAt(h, c, p);
    forall i, j | 0 <= i < j < |r| ensures r[i].id != r[j].id {
      if j == p {
        assert r[i] == h[i];
      } else if i == p {
        assert r[j] == h[j - 1];
      }
    }
  }

  /** The loop state of `GetHistory`: `h` is the newest-first history of the
      records whose keys are no longer `remaining`. */
  predicate SortedSoFar(h: seq<Creation>, s: Store, remaining: set<string>)
  {
    && remaining <= s.Keys
    && NewestFirst(h)
    && DistinctIds(h)
    && (forall i | 0 <= i < |h| :: h[i].id in s && s[h[i].id] == h[i] && h[i].id !in remaining)
    && (forall k | k in s && k !in remaining :: HasId(h, k))
  }

  /** Filing one more record keeps the loop state. */
  lemma InsertStep(h: seq<Creation>, s: Store, remaining: set<string>, k: string)
    requires SortedSoFar(h, s, remaining) && k in remaining && WellKeyed(s)
    ensures SortedSoFar(InsertAt(h, s[k], InsertPos(s[k], h)), s, remaining - {k})
  {
    var c := s[k];
    var p := InsertPos(c, h);
    var h' := InsertAt(h, c, p);
    InsertKeepsNewestFirst(h, c);
    InsertKeepsDistinct(h, c, p);
    forall i | 0 <= i < |h'| ensures h'[i].id in s && s[h'[i].id] == h'[i] && h'[i].id !in remaining - {k} {
      if i < p { assert h'[i] == h[i]; } else if i > p { assert h'[i] == h[i - 1]; }
    }
    forall k' | k' in s && k' !in remaining - {k} ensures HasId(h', k') {
      if k' == k {
        assert h'[p].id == k;
      } else {
        var j :| 0 <= j < |h| && h[j].id == k';
        if j < p { assert h'[j] == h[j]; } else { assert h'[j + 1] == h[j]; }
      }
    }
  }

  /** `getHistory`: every stored record, newest first. The records come out
      of `getAll` in an order this model leaves open, and are sorted; a
      database that cannot be opened yields the empty history. */
  method GetHistory(s: Store, dbOpens: bool) returns (h: seq<Creation>)
    requires WellKeyed(s)
    ensures !dbOpens ==> h == []
    ensures dbOpens ==> IsHistoryOf(h, s)
  {
    h := [];
    if !dbOpens {
      return;
    }
    var remaining := s.Keys;
    while remaining != {}
      invariant SortedSoFar(h, s, remaining)
      decreases remaining
    {
      var k :| k in remaining;
      InsertStep(h, s, remaining, k);
      h := InsertAt(h, s[k], InsertPos(s[k], h));
      remaining := remaining - {k};
    }
  }

  /** The identifiers of a sequence of records. */
  function IdSet(h: seq<Creation>): set<string>
  {
    set i | 0 <= i < |h| :: h[i].id
  }

  lemma {:induction false} DistinctIdsCount(h: seq<Creation>)
    requires DistinctIds(h)
    ensures |IdSet(h)| == |h|
  {
    if h != [] {
      var t := h[1..];
      assert DistinctIds(t) by {
        forall i, j | 0 <= i < j < |t| ensures t[i].id != t[j].id {
          assert t[i] == h[i + 1] && t[j] == h[j + 1];
        }
      }
      DistinctIdsCount(t);
      assert IdSet(h) == IdSet(t) + {h[0].id} by {
        forall x | x in IdSet(h) ensures x in IdSet(t) + {h[0].id} {
          var i :| 0 <= i < |h| && h[i].id == x;
          if i > 0 { assert t[i - 1] == h[i]; }
        }
        forall x | x in IdSet(t) ensures x in IdSet(h) {
          var i :| 0 <= i < |t| && t[i].id == x;
          assert h[i + 1] == t[i];
        }
      }
      assert h[0].id !in IdSet(t);
    }
  }

  /** The history has exactly as many entries as the store has records. */
  lemma HistoryCount(h: seq<Creation>, s: Store)
    requires IsHistoryOf(h, s)
    ensures |h| == |s|
  {
    DistinctIdsCount(h);
    assert IdSet(h) == s.Keys by {
      forall k | k in s ensures k in IdSet(h) {
        var i :| 0 <= i < |h| && h[i].id == k;
      }
    }
  }

  /** Two histories of one store have the same length and hold the same records;
      the store does not fix the order among records with equal timestamps,
      so neither does this lemma. */
  lemma HistoryDeterminedUpToTies(h1: seq<Creation>, h2: seq<Creation>, s: Store)
    requires IsHistoryOf(h1, s) && IsHistoryOf(h2, s)
    ensures |h1| == |h2|
    ensures forall i | 0 <= i < |h1| :: h2[i] in h1
  {
    HistoryCount(h1, s);
    HistoryCount(h2, s);
    forall i | 0 <= i < |h2| ensures h2[i] in h1 {
      var k := h2[i].id;
      var j :| 0 <= j < |h1| && h1[j].id == k;
      assert h1[j] == s[k] == h2[i];
    }
  }
}

=== FILE: text.dfy ===
/** The JavaScript string primitives the core relies on: `trim`, `includes`,
    `startsWith`/`endsWith` and `toLowerCase`, over strings of characters. */
module Text {

  /** JavaScript's WhiteSpace and LineTerminator characters: exactly the set
      `String.prototype.trim` removes and the regular-expression class `\s`
      matches. */
  predicate IsSpace(c: char)
  {
    || ('\t' <= c <= '\r') || c == ' ' || c == '\U{00A0}' || c == '\U{1680}'
    || ('\U{2000}' <= c <= '\U{200A}') || ('\U{2028}' <= c <= '\U{2029}')
    || c == '\U{202F}' || c == '\U{205F}' || c == '\U{3000}' || c == '\U{FEFF}'
  }

  /** Every character of `s` is white space. */
  predicate AllSpace(s: string)
  {
    forall i | 0 <= i < |s| :: IsSpace(s[i])
  }

  predicate StartsWith(s: string, prefix: string)
  {
    |prefix| <= |s| && s[..|prefix|] == prefix
  }

  predicate EndsWith(s: string, suffix: string)
  {
    |suffix| <= |s| && s[|s| - |suffix|..] == suffix
  }

  /** `w` occurs in `s` starting at position `i`. */
  predicate OccursAt(s: string, w: string, i: int)
  {
    0 <= i && i + |w| <= |s| && s[i..i + |w|] == w
  }

  /** `s` is `r` surrounded by white space only: `r` starts at `lo` in `s`,
      and everything before and after it is white space. */
  predicate Surrounds(s: string, lo: int, r: string)
  {
    && OccursAt(s, r, lo)
    && AllSpace(s[..lo])
    && AllSpace(s[lo + |r|..])
  }

  /** The regular expression `^\s*`: drops the leading white space. */
  function TrimStart(s: string): (r: string)
    ensures EndsWith(s, r)
    ensures AllSpace(s[..|s| - |r|])
    ensures r == [] || !IsSpace(r[0])
  {
    if |s| > 0 && IsSpace(s[0]) then
      var r := TrimStart(s[1..]);
      assert s[|s| - |r|..] == s[1..][|s| - 1 - |r|..];
      SpaceThenSpace(s[0], s[1..][..|s| - 1 - |r|]);
      assert s[..|s| - |r|] == [s[0]] + s[1..][..|s| - 1 - |r|];
      r
    else
      s
  }

  /** A white-space character followed by white space is white space. */
  lemma SpaceThenSpace(c: char, t: string)
    requires IsSpace(c) && AllSpace(t)
    ensures AllSpace([c] + t)
  {
    assert forall i | 1 <= i < |t| + 1 :: ([c] + t)[i] == t[i - 1];
  }

  /** Drops the trailing white space. */
  function TrimEnd(s: string): (r: string)
    ensures StartsWith(s, r)
    ensures AllSpace(s[|r|..])
    ensures r == [] || !IsSpace(r[|r| - 1])
  {
    if |s| > 0 && IsSpace(s[|s| - 1]) then
      var p := s[..|s| - 1];
      var r := TrimEnd(p);
      assert s[..|r|] == p[..|r|];
      SpaceThenSpaces(p[|r|..], [s[|s| - 1]]);
      assert s[|r|..] == p[|r|..] + [s[|s| - 1]];
      r
    else
      s
  }

  /** `String.prototype.trim`: the unique slice of `s` that neither starts nor
      ends with white space and is surrounded by white space only. */
  function Trim(s: string): (r: string)
    ensures r != [] ==> !IsSpace(r[0]) && !IsSpace(r[|r| - 1])
    ensures r == [] <==> AllSpace(s)
  {
    var t := TrimStart(s);
    var u := TrimEnd(t);
    TrimmedEnds(s, t, u);
    u
  }

  /** The two halves of trimming put together: `t` is `s` less its leading
      white space, `u` is `t` less its trailing white space. */
  lemma TrimmedEnds(s: string, t: string, u: string)
    requires EndsWith(s, t) && AllSpace(s[..|s| - |t|]) && (t == [] || !IsSpace(t[0]))
    requires StartsWith(t, u) && AllSpace(t[|u|..]) && (u == [] || !IsSpace(u[|u| - 1]))
    ensures u != [] ==> !IsSpace(u[0]) && !IsSpace(u[|u| - 1])
    ensures u == [] <==> AllSpace(s)
    ensures Surrounds(s, |s| - |t|, u)
  {
    var lo := |s| - |t|;
    assert s[lo..lo + |u|] == u;
    assert s[lo + |u|..] == t[|u|..];
    if u == [] {
      SpaceThenSpaces(s[..lo], t);
      assert s[..lo] + t == s;
    } else {
      assert u[0] == s[lo];
    }
  }

  /** White space followed by white space is white space. */
  lemma SpaceThenSpaces(a: string, b: string)
    requires AllSpace(a) && AllSpace(b)
    ensures AllSpace(a + b)
  {
    assert forall i | |a| <= i < |a| + |b| :: (a + b)[i] == b[i - |a|];
  }

  /** What trimming leaves is `s` less the white space around it. */
  lemma TrimIsSurrounded(s: string)
    ensures Surrounds(s, |s| - |TrimStart(s)|, Trim(s))
  {
    var t := TrimStart(s);
    TrimmedEnds(s, t, TrimEnd(t));
  }

  /** Trimming twice is trimming once. */
  lemma TrimIdempotent(s: string)
    ensures Trim(Trim(s)) == Trim(s)
  {
  }

  /** `s.includes(w)`, written as the search the runtime performs: try each
      starting position from the left. */
  function Contains(s: string, w: string): (b: bool)
    ensures b <==> exists i :: OccursAt(s, w, i)
    decreases |s|
  {
    if StartsWith(s, w) then
      assert OccursAt(s, w, 0);
      true
    else if |s| == 0 then
      false
    else
      var rest := Contains(s[1..], w);
      assert forall i :: OccursAt(s[1..], w, i) ==> OccursAt(s, w, i + 1) by {
        forall i | OccursAt(s[1..], w, i) ensures OccursAt(s, w, i + 1) {
          assert s[1..][i..i + |w|] == s[i + 1..i + 1 + |w|];
        }
      }
      assert forall i :: OccursAt(s, w, i) && i > 0 ==> OccursAt(s[1..], w, i - 1) by {
        forall i | OccursAt(s, w, i) && i > 0 ensures OccursAt(s[1..], w, i - 1) {
          assert s[1..][i - 1..i - 1 + |w|] == s[i..i + |w|];
        }
      }
      rest
  }

  /** An occurrence in `t` is an occurrence in `p + t`, shifted by `|p|`. */
  lemma OccursAfter(p: string, t: string, w: string, i: int)
    requires OccursAt(t, w, i)
    ensures OccursAt(p + t, w, |p| + i)
  {
    assert (p + t)[|p| + i..|p| + i + |w|] == t[i..i + |w|];
  }

  /** A character no occurrence of `w` could use rules `w` out: if `w` has a
      character that `s` lacks, `s` does not contain `w`. */
  lemma NotContainsByChar(s: string, w: string, k: int)
    requires 0 <= k < |w|
    requires w[k] !in s
    ensures !Contains(s, w)
  {
  }

  /** `toLowerCase` on one character; only the ASCII letters are mapped. */
  function LowerChar(c: char): char
  {
    if 'A' <= c <= 'Z' then (c as int + 32) as char else c
  }

  /** `String.prototype.toLowerCase`, character by character. */
  function ToLower(s: string): (r: string)
    ensures |r| == |s|
    ensures forall i | 0 <= i < |s| :: r[i] == LowerChar(s[i])
  {
    seq(|s|, i requires 0 <= i < |s| => LowerChar(s[i]))
  }

  /** Lowering the whole string lowers every slice of it. */
  lemma ToLowerSlice(s: string, i: int, j: int)
    requires 0 <= i <= j <= |s|
    ensures ToLower(s)[i..j] == ToLower(s[i..j])
  {
  }

  /** Case-insensitive search: if some slice of `s` spells the lower-case
      word `w` in any mix of cases, the lowered `s` contains `w`. */
  lemma ContainsIgnoringCase(s: string, w: string, i: int)
    requires 0 <= i && i + |w| <= |s|
    requires ToLower(s[i..i + |w|]) == w
    ensures Contains(ToLower(s), w)
  {
    ToLowerSlice(s, i, i + |w|);
    assert OccursAt(ToLower(s), w, i);
  }
}

=== FILE: wrappers.dfy ===
/** Optional and fallible values, standing in for JavaScript's `undefined`,
    `null` and thrown exceptions. */
module Wrappers {

  /** A value that may be missing (`undefined` / `null` in the source). */
  datatype Option<+T> = None | Some(value: T)

  /** The outcome of an operation that either produces a value or fails. */
  datatype Result<+R, +E> = Success(value: R) | Failure(error: E)

  /** JavaScript truthiness of an optional string: present and not `""`. */
  predicate Truthy(o: Option<string>)
  {
    o.Some? && o.value != ""
  }

  /** `o || ""`: the string itself when truthy, otherwise the empty string. */
  function OrEmpty(o: Option<string>): (r: string)
    ensures Truthy(o) <==> r != ""
    ensures r != "" ==> o == Some(r)
  {
    if Truthy(o) then o.value else ""
  }
}
